=== FILE: README.md ===
# US traffic accidents pipeline: a Dafny model of its data core

The repository prepares a nationwide table of traffic accidents for a dashboard
of the accidents in California. It has three data stages:

- a cleaning chain in `preprocess.py`. The file keeps it as disabled reference
  code. The chain is a lazy query plan that drops unused columns, parses the
  start and end times, drops rows with nulls in required columns, adds four time
  features and fills missing wind speeds with 0 (0.0, as the column holds
  floats). It then sinks the result and
  reports how many rows were dropped.
- the active part of `preprocess.py`, which keeps the rows whose `State` is
  `"CA"`, reports the counts and California's share, and sinks the kept rows.
- `optimize_data.py`, which rewrites each listed file with only the columns the
  dashboard needs.

The dashboard in `main.py` loads the California file and derives year, month,
weekday and hour from `Start_Time`. When there is nothing to load, it falls
back to an empty table with a fixed schema. It computes two average KPIs, a
sample for the map, pies for four road features, and counts per weekday, month
and hour.

Here a table is a header (a sequence of column names) and a sequence of rows.
A row maps names to optional values, where `None` is a null. Every stage is a
pure function on such tables. The modules follow the program:

- `Tables`: tables, row tests and projection.
- `Clock`: timestamps as seconds since the epoch, with hour, weekday, whole
  minutes and whole days.
- `Plan`: the query-plan steps and their interpreter, with the library's
  semantics.
- `Cleaning`: the reference chain.
- `Region`: the California filter.
- `Optimize`: column projection and the batch loop.
- `Dashboard`: the loading and the figures' data.

Some behaviours of the code that a reader might not expect:

- In the cleaning chain, `str.to_datetime()` is strict. With the steps run in
  the order they are written, one unparseable start time fails the whole run
  (`Cleaning.UnparseableStartFails`).
- The dashboard parses with `to_datetime(errors='coerce')`, so there an
  unparseable start time becomes a null (`Dashboard.Coerce`).
- Reading with `usecols` returns the kept columns in the file's own order, not
  in wish-list order (`Optimize.OptimizeTable`).
- A file that has none of the 18 wish-listed columns is read as a frame with
  no columns and no rows. The file is then overwritten with no header line,
  so the next read of it fails (`Optimize.Projected`, `Optimize.Again`).
- Two divisions by a row count have no guard. Both are listed under "Findings",
  each with the code as written and a guarded version.

## Model

| member | source | states |
|---|---|---|
| Tables.Keep | optimize_data.py:48 | the names of a list that occur in another list, in the first list's order; no duplicates when the list has none |
| Tables.Omit | preprocess.py:30 | the header without the named columns, in the header's order |
| Tables.AppendNames | main.py:26-38 | assigning new columns keeps existing names in place and then appends exactly the new names not already present, in the order given; the names are the union and stay distinct |
| Tables.Reshape | optimize_data.py:50 | a table limited to some of its columns keeps every row and every value in the kept columns and has nothing else |
| Tables.ReshapeTwice | optimize_data.py:50-57 | limiting a table twice to the same columns is limiting it once |
| Tables.Where | preprocess.py:97 | a row filter yields an order-preserving subsequence holding exactly the input rows that pass; it keeps every row iff every row passes (each repeated row as often as it occurs: `Tables.WhereSnoc`) |
| Tables.WhereSnoc | preprocess.py:97 | one more row at the end is kept, once, iff it passes, after the rows kept before it |
| Tables.WhereWellFormed | preprocess.py:97 | filtering rows keeps a well-formed table well formed |
| Tables.WhereTwice | preprocess.py:40-43 | two filters in a row keep exactly the rows that pass both |
| Tables.CountAgree | preprocess.py:40-43 | changing rows without flipping the test keeps the count of passing rows |
| Clock.HourOfDay | main.py:38 | the hour is in 0..23 and is the hour-long slice of the day the timestamp falls in |
| Clock.Weekday | main.py:33 | the ISO weekday is 1..7 and steps by one per day from the epoch's Thursday |
| Clock.NextDay | main.py:33-38 | a day later gives the next weekday (Sunday wraps to Monday) and the same hour |
| Clock.WholeMinutes | preprocess.py:50 | a span in whole minutes, the remainder below one minute and truncated toward zero for negative spans |
| Clock.WholeDays | main.py:186 | a non-negative span in whole days, the remainder below one day |
| Clock.MonthName | main.py:27 | a month's name is one of January to December |
| Clock.DayName | main.py:33 | a weekday's name is one of Monday to Sunday |
| Plan.StampAt | preprocess.py:47-50 | a timestamp cell is read as its time or a null; any other value is a type error |
| Plan.Eval | preprocess.py:33-54 | parsing a text cell succeeds iff the parser accepts the text, giving its timestamp, and otherwise fails with a parse error naming the column and text; parsing a value that is not text is a type error and a null stays null; a fill never yields null and keeps a present value; derived features of null inputs are null |
| Plan.Updates | preprocess.py:46-51 | one row's new cells are under exactly the assigned names |
| Plan.UpdatesOk | preprocess.py:46-51 | a row updates without error iff every assignment evaluates on it |
| Plan.UpdatesAt | preprocess.py:46-51 | every assignment sees the row as it was before the step, and its value lands under its own name |
| Plan.ApplyRows | preprocess.py:46-51 | a column step keeps the number of rows |
| Plan.ApplyRowsOk | preprocess.py:46-51 | a column step succeeds iff it succeeds on every row |
| Plan.ApplyRowsAt | preprocess.py:46-51 | output row i is input row i with only its own new cells laid over it |
| Plan.FilterRows | preprocess.py:40-43 | a row filter fails iff it reads an absent column; otherwise it keeps the header and exactly the passing rows |
| Plan.DropColumns | preprocess.py:30 | `drop` removes exactly the named columns and keeps the rows; whether an absent name is an error is the policy's choice |
| Plan.SetColumns | preprocess.py:33-36 | `with_columns` fails on an absent input column, duplicate output names or any row's error; otherwise it appends new names and updates every row |
| Plan.RunStep | preprocess.py:28-55 | no step adds rows; column steps keep the row count and row filters keep the header; well-formedness is kept |
| Plan.Run | preprocess.py:28-55 | running the chain never adds rows and keeps a well-formed table well formed |
| Plan.DropShape | preprocess.py:30 | after `drop`, the header is the old header without the named columns, and every row and surviving cell is kept |
| Plan.DroppedHeader | preprocess.py:30 | a column survives `drop` iff the table had it and it was not named |
| Plan.DroppedCellAt | preprocess.py:30 | a surviving column keeps its cells |
| Plan.UpdatedCell | preprocess.py:46-51 | an updated row holds each assignment's value under its name |
| Plan.UntouchedCell | preprocess.py:46-51 | a column no assignment names keeps its cell |
| Plan.SetColumnsNoRows | preprocess.py:33-36 | on a table without rows, `with_columns` succeeds once its inputs are present and its names distinct, and only extends the header |
| Plan.SetColumnsShape | preprocess.py:33-51 | a successful column step had its inputs and distinct names; the header gains the new names at the end and the row count is kept |
| Plan.SetColumnsCellAt | preprocess.py:46-51 | row i's new cell under assignment k is that assignment's value on input row i alone |
| Plan.SetColumnsKeptAt | preprocess.py:46-51 | cells of columns no assignment names are unchanged |
| Plan.SetColumnsCells | preprocess.py:46-51 | the two facts above for every row and column at once |
| Plan.SetColumnsKeepsHeader | preprocess.py:33-36 | a column present after a column step that the step does not assign was in its input |
| Plan.DropNullsShape | preprocess.py:40-43 | a successful null filter read only present columns, kept the header and kept exactly the rows with no null in the subset |
| Plan.RunSingle | preprocess.py:28-55 | a chain of one step runs that step |
| Plan.RunPair | preprocess.py:28-55 | a chain of two steps runs the second on the first's output and stops at the first failure |
| Plan.NullFilterPair | preprocess.py:40-43 | two null filters in a row succeed and keep the same rows as one filter over both subsets |
| Plan.NullFiltersCompose | preprocess.py:40-43 | as chains: two null filters equal one over both subsets, in either order, keeping exactly the rows with no null in either subset |
| Plan.FillNullOnlyNulls | preprocess.py:54 | `fill_null` fails iff the column is absent; otherwise the header, row count and other columns are unchanged, non-null cells are kept, and nulls become the fill value |
| Cleaning.Stages | preprocess.py:28-55 | a successful run passes through the six steps in declared order |
| Cleaning.FromStages | preprocess.py:28-55 | conversely, six steps that succeed in turn make the run end with the wind fill's result |
| Cleaning.FromLateStages | preprocess.py:43-55 | the same for the last three steps |
| Cleaning.TracedToInput | preprocess.py:21-36 | a column present after parsing that parsing does not assign came from the input and was not dropped |
| Cleaning.TimesPresent | preprocess.py:34-35 | a successful run needs `Start_Time` and `End_Time` in the input |
| Cleaning.WindPresent | preprocess.py:54 | a successful run needs `Wind_Speed(mph)` in the input |
| Cleaning.RequiredPresent | preprocess.py:40-43 | a successful run needs all seven required columns in the input, none of them dropped |
| Cleaning.CleaningNeedsColumns | preprocess.py:28-55 | the three column requirements together |
| Cleaning.ParsedTimes | preprocess.py:33-36 | after parsing, both time columns hold timestamps or nulls |
| Cleaning.FilteredRowsParsed | preprocess.py:40-43 | the null filters keep that property |
| Cleaning.FeatureRowAt | preprocess.py:46-51 | row i's four features follow from that row's own start and end |
| Cleaning.FeaturesComputed | preprocess.py:46-51 | every row's features follow from its own timestamps |
| Cleaning.RowFeatures | preprocess.py:46-51 | the values the feature expressions take make a row's features agree with its timestamps |
| Cleaning.WindFillKeepsFeatures | preprocess.py:54 | filling the wind speed does not disturb the features |
| Cleaning.CleanedRowsAgree | preprocess.py:46-54 | every output row has hour, month and weekday of its start and `Duration_Minutes` = end minus start in whole minutes, null when a time is null |
| Cleaning.CleanedHeader | preprocess.py:21-51 | the output header is the input header without the thirteen dropped columns, in order, followed by Hour, Month, Weekday, Duration_Minutes, when the input has none of the four feature names |
| Cleaning.ParseKeepsCell | preprocess.py:33-36 | parsing leaves the cells of every other column as they were |
| Cleaning.RequiredCellsKept | preprocess.py:30-36 | dropping and parsing leave the required cells as in the input |
| Cleaning.CleanedRowCount | preprocess.py:40-43 | the output has exactly as many rows as the input has rows with no null among the seven required columns |
| Cleaning.UnparseableStartFails | preprocess.py:33-35 | a start time that is text the parser rejects fails the whole run |
| Cleaning.StartParsedAt | preprocess.py:30-35 | after the parse step, row k's start is the parse of input row k's start cell |
| Cleaning.StartKeptByFeatures | preprocess.py:46-54 | the feature step and the wind fill leave each row's start cell alone |
| Cleaning.FilteredRowOrigin | preprocess.py:40-43 | every row the null filters keep is a row of their input |
| Cleaning.StartTracedAt | preprocess.py:30-54 | each output row's start is the parse of some input row's start cell |
| Cleaning.ParsedStartsTraced | preprocess.py:30-54 | every emitted start time is the parser's timestamp for some input row's start text, or null for a null |
| Cleaning.EmptyLateStages | preprocess.py:46-54 | with no rows, the feature step and the wind fill succeed once both timestamps and the wind speed are columns |
| Cleaning.EmptyRunSucceeds | preprocess.py:28-55 | with no data rows, the chain succeeds once the input has the columns it reads (and, under a strict `drop`, the dropped ones) |
| Cleaning.StrictClean | preprocess.py:11-79 | a missing or unreadable source, or a failing plan, ends without output, with the plan's own error; an accepted empty input fails only after the sink wrote its output; a report has raw > 0, clean ≤ raw, dropped = raw − clean and the percentage dropped/raw × 100 |
| Cleaning.StrictCleanGuarded | preprocess.py:59-69 | the corrected script: the same failures without output, never a failure after the sink; every accepted input is reported with its counts, an empty one with 0 percent |
| Cleaning.GuardedCleanAgrees | preprocess.py:59-69 | the corrected script changes only the empty-input case, which it reports as nothing dropped |
| Cleaning.EmptyInputFailsAfterSink | preprocess.py:59-69 | a source with the cleaning columns and no data rows: the script writes the empty output and then fails, while the corrected one reports 0 of 0 rows dropped |
| Cleaning.ReportedCounts | preprocess.py:59-69 | a non-empty input the plan accepts is reported with the sunk table, clean = rows with no null required cell, dropped = the rest |
| Region.Percent | preprocess.py:104 | the share of a part in a positive whole lies in 0..100, is 100 for the whole and 0 for nothing |
| Region.RegionRun | preprocess.py:91-119 | an unreadable input, a missing `State` column, or an input with no rows fails without saving; otherwise the CA rows are saved with CA ≤ US and the share in 0..100 |
| Region.RegionRunGuarded | preprocess.py:93-113 | every readable input with a `State` column is saved, with a share of 0 when it has no rows |
| Region.GuardAgrees | preprocess.py:104 | wherever the script as written saves, the guarded one saves the same table, counts and share |
| Region.EmptyInputFails | preprocess.py:104-119 | an input with a `State` column and no rows ends in the division error and saves nothing, while the guarded script saves an empty table |
| Region.SavedRowsAreInState | preprocess.py:97-103 | the saved table has the input's header; its rows are an order-preserving subsequence; every saved row is CA and every CA row is saved |
| Region.RegionIdempotent | preprocess.py:97 | filtering the saved table again saves the same table, with a 100 percent share when it has rows |
| Optimize.ColsToKeepDistinct | optimize_data.py:9-23 | the wish-list has 18 distinct names |
| Optimize.FinalColumns | optimize_data.py:47-48 | the kept columns are exactly the wish-list names the file has, in wish-list order, without duplicates, at most min(18, header length) of them |
| Optimize.OptimizeTable | optimize_data.py:47-50 | the frame read with `usecols` has exactly the file's wish-listed columns in file order; when the file has at least one of them it has every row, each with the row's values in those columns and no other column; when it has none the frame has no columns and no rows |
| Optimize.Projected | optimize_data.py:47-57 | an unreadable file stays unreadable; a file with a wish-listed column is overwritten with its projection; a file with none is overwritten with a file that cannot be read back |
| Optimize.Again | optimize_data.py:37-64 | a later visit reports the same outcome as the first, except that a rewrite that kept no column now fails to read; a second `Again` changes nothing |
| Optimize.OptimizeIdempotent | optimize_data.py:47-50 | optimizing an optimized table keeps the same kept columns and changes nothing |
| Optimize.OptimizeFile | optimize_data.py:34-64 | a missing file is skipped and an unreadable one reported, both leaving the files alone; otherwise the kept columns are reported and only that file is overwritten, with its projection, or with an unreadable file when no column was kept |
| Optimize.OptimizeAll | optimize_data.py:66-69 | the batch keeps the set of files, reports once per listed path, and leaves unlisted files alone |
| Optimize.BatchOutcomes | optimize_data.py:63-69 | every listed file reports, the first time it is listed, the outcome its original content decides, and `Again` of that on each later listing; a failure does not stop later files |
| Optimize.OutcomeAfterVisit | optimize_data.py:37-69 | after one file has been visited, every file's next report is the one the earlier disk decides, with that file counted as already visited |
| Optimize.BatchFiles | optimize_data.py:37-69 | after the batch, each listed readable file holds its projection and every other file is unchanged |
| Optimize.ProjectedTwice | optimize_data.py:50-57 | rewriting a rewritten file changes nothing |
| Optimize.OptimizeScript | optimize_data.py:25-69 | the script's run over its two files reports, for each, the outcome its original content decides, rewrites each readable one and touches nothing else |
| Optimize.ExpectedStable | optimize_data.py:47-57 | rewriting a file does not change any other file's outcome, and changes its own only from keeping no column to a failed read |
| Dashboard.Coerce | main.py:23 | text that parses becomes its parsed timestamp and text that does not parse becomes null, not an error; a timestamp stays; a null or any other value becomes null |
| Dashboard.CoerceExtendsStrictParse | main.py:23 | the lenient parse gives the strict parse's result wherever that succeeds; where it fails, null, except that a cell already holding a timestamp is kept |
| Dashboard.DerivedCells | main.py:26-38 | the four derived columns are set for every row |
| Dashboard.Load | main.py:17-61 | the fallback table iff the file is missing, unreadable, lacks `Start_Time` or has no rows; otherwise the file's columns then Year, Month, DayOfWeek, Hour, one row per file row |
| Dashboard.LoadWellFormed | main.py:17-61 | the loaded table and the fallback are well formed |
| Dashboard.LoadedRowKeys | main.py:23-38 | a row loaded by `Dashboard.LoadRow` has the file row's columns plus `Start_Time` and the derived columns |
| Dashboard.LoadedRowStart | main.py:23-38 | a row loaded by `Dashboard.LoadRow` has the coerced file start, and its derived cells follow from it |
| Dashboard.LoadedRowFrame | main.py:23-38 | `Dashboard.LoadRow` keeps every other cell of the row |
| Dashboard.LoadKeepsCells | main.py:19-38 | the same for a loaded table's row i |
| Dashboard.LoadedRowsAgree | main.py:23-38 | given the column's parser, each row's derived cells depend only on its own start; an unparseable start gives nulls; hours lie in 0..23 and names come from the fixed lists |
| Dashboard.LoadedHours | main.py:38 | every hour cell of a loaded table is null or an hour of the day |
| Dashboard.Stamps | main.py:186 | the non-null start times, each from some row and every row's time included |
| Dashboard.Earliest | main.py:186 | the minimum of the start times |
| Dashboard.Latest | main.py:186 | the maximum of the start times |
| Dashboard.DayDivisor | main.py:186-188 | whole days between the first and last start, at least 1 |
| Dashboard.DailyKpi | main.py:180-191 | "0" iff the table is empty; undefined iff no start time is known; otherwise all rows over a divisor of at least 1 |
| Dashboard.HourlyKpi | main.py:194-206 | the same cases as the daily KPI, with a divisor of 24 times the daily one, at least 24 |
| Dashboard.LoadedKpi | main.py:51-61 | on the loaded table the KPIs read "0" iff the dashboard fell back, and are undefined iff no start time parsed |
| Dashboard.MapData | main.py:211-220 | no points for an empty table; all rows up to 10000; otherwise exactly 10000 rows drawn by the given sample order |
| Dashboard.ValueCounts | main.py:255 | distinct non-null values of a column, each with its positive row count, covering every non-null cell |
| Dashboard.CountSnoc | main.py:255 | one more row raises the count of its own value by one and no other count |
| Dashboard.AbsentCountsZero | main.py:255 | a value missing from a tally is held by no row |
| Dashboard.TallySnoc | main.py:255 | folding the next row's cell into a tally gives the tally of the longer prefix |
| Dashboard.KeepSnoc | main.py:253-254 | the present features are decided one feature at a time |
| Dashboard.PiesAdd | main.py:253-258 | a present feature adds its pie |
| Dashboard.PiesSkip | main.py:253-254 | an absent feature adds no pie |
| Dashboard.PoiPies | main.py:237-258 | no pies for an empty table; otherwise one pie for each of Junction, Crossing, Traffic_Signal, Stop that is a column, in that order, in its own grid slot, with that column's value counts |
| Dashboard.Reindex | main.py:271-289 | `reindex` gives a number for a name iff the tally holds that name, and then the tally's count for it |
| Dashboard.ReindexCounts | main.py:271 | for each name of the fixed order, its row count when positive and no number otherwise |
| Dashboard.DayCounts | main.py:265-271 | no bars for an empty table; otherwise the counts for Monday to Sunday in that order |
| Dashboard.MonthCounts | main.py:283-289 | no bars for an empty table; otherwise the counts for January to December in that order |
| Dashboard.HoursStep | main.py:307 | checking the next hour extends the list by it iff some row has it |
| Dashboard.HourCounts | main.py:301-307 | the hours that occur, strictly ascending, each with its row count, covering every row's hour |
| Dashboard.HoursListed | main.py:307 | a list containing every hour that some row has covers every row's hour |

## Left out

- File formats: CSV reading and writing, lazy scans, sinks and streaming. A file is a table, `Corrupt`, or absent.
- Printing, `time.time`, `os.path.getsize` and the size report.
- The Shiny reactive graph and all figure construction, including layouts, colours and map settings.
- `kpi_total` (main.py:175-177), which only formats the row count.
- `run.py`, a one-shot format conversion.
- Calendar rules. The civil year and month of a timestamp come from a `Calendar` parameter. Timestamp text is parsed by a parameter, `parse`. It stands for the one format that polars and pandas infer for a column from its first non-null text, since neither call names a format. One `parse` serves both time columns, Start_Time and End_Time. Because the format is inferred per column, whether a row's text parses can depend on the other rows of the file.
- Hour, weekday and whole days are computed from seconds since the epoch, without time zones.
- Floating point. Shares and averages are exact reals, or a row count with its divisor.
- The `:.2f` formatting.
- Dashboard.MapData: the random draw of `sample` is a parameter, a shuffle of the row positions. Only the size and the origin of the rows are stated.
- Dashboard.Coerce: a start cell that is neither text nor a timestamp becomes null. pandas would read an integer as nanoseconds since the epoch.
- Dashboard.ValueCounts: the values are listed in order of first appearance. pandas lists them by descending count. Only the order of a pie's slices depends on this.
- Dashboard.HourCounts: requires every hour cell to be null or in 0..23. Loading guarantees this (`Dashboard.LoadedHours`).
- Cleaning.StrictClean: when the plan fails, polars raises inside `sink_csv` (preprocess.py:59) while it executes the lazy query. Whatever the sink may already have written is not modelled: the outcome says only that no output was produced.
- Cleaning.UnparseableStartFails: the steps run in the order they are written. polars' query optimiser may move the null filters before the parse, or into the scan, because they read no column the parse writes. A row with a rejected start time and a null required cell could then be dropped before it is parsed. That reordering is not modelled, so the failure is promised only for the written order.
- Plan.DropColumns: whether `drop` rejects a name the table lacks is a parameter of the model, so nothing is asserted either way.
- Writing a file never fails in the model. A failed write in `optimize_file` would be reported like a failed read.
- A table with rows but no columns is treated as empty, following pandas' `df.empty`.
- The filtering and reset controls of the dashboard. `filtered_df` (main.py:168) returns the loaded table unchanged, so every figure reads that table.

## Findings

| source | as written | input that shows it | evidently intended | confidence | as-written member | corrected member |
|---|---|---|---|---|---|---|
| preprocess.py:104 | the California share divides by the total row count without a guard, before the sink at line 113 | a readable file with a `State` column and no rows: the division raises, the `except` at lines 118-119 reports it, and no output file is written | report a share of 0 and still save the (empty) California file | not executed; high | Region.RegionRun, Region.EmptyInputFails | Region.RegionRunGuarded |
| preprocess.py:69 | the share of dropped rows divides by the raw row count without a guard, after the sink at line 59 | a file with a header holding every column the chain reads (and the thirteen it drops) but no data rows: the sink writes an empty output, then the division raises and the `except` at lines 78-79 reports it | report 0 of 0 rows dropped | not executed; high | Cleaning.StrictClean, Cleaning.EmptyInputFailsAfterSink | Cleaning.StrictCleanGuarded, Cleaning.GuardedCleanAgrees |

=== FILE: cleaning.dfy ===
/** The strict cleaning chain of preprocess.py (kept there as disabled reference
    code): drop thirteen unused columns, parse the two timestamps, drop rows with
    nulls in two groups of required columns, append four time features, and fill
    the nulls of the wind speed with 0.0; then sink the result and report how many
    rows were dropped. */
module Cleaning {
  import opened Tables
  import opened Clock
  import opened Plan

  const EndTime: string := "End_Time"
  const WindSpeed: string := "Wind_Speed(mph)"

  const DroppedColumns: seq<string> := [
    "ID", "Source", "Description", "Country", "Zipcode", "Airport_Code",
    "Wind_Chill(F)", "Precipitation(in)", "Civil_Twilight",
    "Nautical_Twilight", "Astronomical_Twilight", "Timezone", "Weather_Timestamp"
  ]

  /** First null filter: the end coordinates. */
  const LocationRequired: seq<string> := ["End_Lat", "End_Lng"]

  /** Second null filter: temperature, weather, daylight, city and street. */
  const DetailRequired: seq<string> := ["Temperature(F)", "Weather_Condition", "Sunrise_Sunset", "City", "Street"]

  const FeatureNames: seq<string> := ["Hour", "Month", "Weekday", "Duration_Minutes"]

  const ParseTimes: seq<Assignment> := [
    Assignment(StartTime, ParseTime(StartTime)),
    Assignment(EndTime, ParseTime(EndTime))
  ]

  const Features: seq<Assignment> := [
    Assignment("Hour", HourOf(StartTime)),
    Assignment("Month", MonthOf(StartTime)),
    Assignment("Weekday", WeekdayOf(StartTime)),
    Assignment("Duration_Minutes", MinutesBetween(EndTime, StartTime))
  ]

  const FillWind: seq<Assignment> := [Assignment(WindSpeed, FillNull(WindSpeed, Real(0.0)))]

  const CleaningPlan: seq<Step> := [
    Drop(DroppedColumns),
    WithColumns(ParseTimes),
    DropNulls(LocationRequired),
    DropNulls(DetailRequired),
    WithColumns(Features),
    WithColumns(FillWind)
  ]

  /** The start and end cells hold parsed timestamps or nulls. */
  predicate TimesParsed(row: Row) {
    && (CellAt(row, StartTime).Some? ==> CellAt(row, StartTime).value.Time?)
    && (CellAt(row, EndTime).Some? ==> CellAt(row, EndTime).value.Time?)
  }

  /** The four features of a row follow from that row's own start and end times:
      null when the timestamp they need is null. */
  predicate FeaturesAgree(env: Env, row: Row) {
    var start, end := CellAt(row, StartTime), CellAt(row, EndTime);
    && TimesParsed(row)
    && (start.None? ==>
          && CellAt(row, "Hour").None? && CellAt(row, "Month").None?
          && CellAt(row, "Weekday").None? && CellAt(row, "Duration_Minutes").None?)
    && (start.Some? && start.value.Time? ==>
          && CellAt(row, "Hour") == Some(Int(HourOfDay(start.value.t)))
          && CellAt(row, "Month") == Some(Int(env.calendar.monthOf(start.value.t)))
          && CellAt(row, "Weekday") == Some(Int(Weekday(start.value.t))))
    && (end.None? ==> CellAt(row, "Duration_Minutes").None?)
    && (start.Some? && start.value.Time? && end.Some? && end.value.Time? ==>
          CellAt(row, "Duration_Minutes") == Some(Int(WholeMinutes(end.value.t - start.value.t))))
  }

  /** A run whose six steps each succeed in turn ends with the last step's result. */
  lemma FromStages(env: Env, t: Table, t1: Table, t2: Table, t3: Table, t4: Table, t5: Table)
    requires DropColumns(env, t, DroppedColumns) == Ok(t1)
    requires SetColumns(env, t1, ParseTimes) == Ok(t2)
    requires FilterRows(t2, NoNulls(LocationRequired)) == Ok(t3)
    requires FilterRows(t3, NoNulls(DetailRequired)) == Ok(t4)
    requires SetColumns(env, t4, Features) == Ok(t5)
    ensures Run(env, CleaningPlan, t) == SetColumns(env, t5, FillWind)
  {
    var p := CleaningPlan;
    assert Run(env, p, t) == Run(env, p[1..], t1);
    assert Run(env, p[1..], t1) == Run(env, p[2..], t2);
    assert Run(env, p[2..], t2) == Run(env, p[3..], t3);
    FromLateStages(env, t3, t4, t5);
  }

  /** The last three steps of a run, from the first null filter's output on. */
  lemma FromLateStages(env: Env, t3: Table, t4: Table, t5: Table)
    requires FilterRows(t3, NoNulls(DetailRequired)) == Ok(t4)
    requires SetColumns(env, t4, Features) == Ok(t5)
    ensures Run(env, CleaningPlan[3..], t3) == SetColumns(env, t5, FillWind)
  {
    var p := CleaningPlan[3..];
    assert Run(env, p, t3) == Run(env, p[1..], t4);
    assert Run(env, p[1..], t4) == Run(env, p[2..], t5);
    assert p[2..] == [WithColumns(FillWind)];
    RunSingle(env, WithColumns(FillWind), t5);
  }

  /** The intermediate tables of a successful run, one per step. */
  lemma Stages(env: Env, t: Table) returns (t1: Table, t2: Table, t3: Table, t4: Table, t5: Table)
    requires Run(env, CleaningPlan, t).Ok?
    ensures DropColumns(env, t, DroppedColumns) == Ok(t1)
    ensures SetColumns(env, t1, ParseTimes) == Ok(t2)
    ensures FilterRows(t2, NoNulls(LocationRequired)) == Ok(t3)
    ensures FilterRows(t3, NoNulls(DetailRequired)) == Ok(t4)
    ensures SetColumns(env, t4, Features) == Ok(t5)
    ensures SetColumns(env, t5, FillWind) == Run(env, CleaningPlan, t)
  {
    var p := CleaningPlan;
    t1 := RunStep(env, p[0], t).value;
    assert Run(env, p, t) == Run(env, p[1..], t1);
    t2 := RunStep(env, p[1], t1).value;
    assert Run(env, p[1..], t1) == Run(env, p[2..], t2);
    t3 := RunStep(env, p[2], t2).value;
    assert Run(env, p[2..], t2) == Run(env, p[3..], t3);
    t4 := RunStep(env, p[3], t3).value;
    assert Run(env, p[3..], t3) == Run(env, p[4..], t4);
    t5 := RunStep(env, p[4], t4).value;
    assert Run(env, p[4..], t4) == Run(env, p[5..], t5);
    assert p[5..] == [WithColumns(FillWind)];
    RunSingle(env, WithColumns(FillWind), t5);
  }

  lemma ParseTimesConstants()
    ensures NamesOf(ParseTimes) == [StartTime, EndTime]
    ensures InputsOf(ParseTimes) == [StartTime, EndTime]
  {
    assert InputsOf(ParseTimes) == [StartTime] + InputsOf(ParseTimes[1..]);
    assert InputsOf(ParseTimes[1..]) == [EndTime] + InputsOf(ParseTimes[1..][1..]);
    assert ParseTimes[1..][1..] == [];
  }

  lemma FeaturesConstants()
    ensures NamesOf(Features) == FeatureNames
    ensures StartTime !in FeatureNames && EndTime !in FeatureNames && WindSpeed !in FeatureNames
  {
    var names := NamesOf(Features);
    assert names[0] == FeatureNames[0] && names[1] == FeatureNames[1];
    assert names[2] == FeatureNames[2] && names[3] == FeatureNames[3];
    FeatureNamesFresh(StartTime);
    FeatureNamesFresh(EndTime);
    FeatureNamesFresh(WindSpeed);
  }

  /** No feature name is as long as a name of 8, 10 or 15 characters. Comparing
      lengths is how the solver tells these literals apart cheaply; comparing the
      strings character by character is far more expensive for it. */
  lemma FeatureNamesFresh(c: string)
    requires |c| in {8, 10, 15}
    ensures c !in FeatureNames
  {
    assert |FeatureNames[0]| == 4 && |FeatureNames[1]| == 5;
    assert |FeatureNames[2]| == 7 && |FeatureNames[3]| == 16;
  }

  lemma FillWindConstants()
    ensures NamesOf(FillWind) == [WindSpeed]
    ensures InputsOf(FillWind) == [WindSpeed]
  {
    assert InputsOf(FillWind) == [WindSpeed] + InputsOf(FillWind[1..]);
    assert FillWind[1..] == [];
  }

  /** A column present after the parse step that the step does not assign was in
      the input, and was not dropped. */
  lemma TracedToInput(env: Env, t: Table, t1: Table, t2: Table, c: string)
    requires DropColumns(env, t, DroppedColumns) == Ok(t1)
    requires SetColumns(env, t1, ParseTimes) == Ok(t2)
    requires c in t2.header && c != StartTime && c != EndTime
    ensures c in t.header && c !in DroppedColumns
  {
    ParseTimesConstants();
    SetColumnsKeepsHeader(env, t1, ParseTimes, t2, c);
    DroppedHeader(env, t, DroppedColumns, t1, c);
  }

  /** A successful run needs both timestamps in the input. */
  lemma TimesPresent(env: Env, t: Table)
    requires Run(env, CleaningPlan, t).Ok?
    ensures StartTime in t.header && EndTime in t.header
  {
    var t1, t2, t3, t4, t5 := Stages(env, t);
    ParseTimesConstants();
    SetColumnsShape(env, t1, ParseTimes, t2);
    assert StartTime in t1.header && EndTime in t1.header;
    DroppedHeader(env, t, DroppedColumns, t1, StartTime);
    DroppedHeader(env, t, DroppedColumns, t1, EndTime);
  }

  /** A successful run needs the wind speed in the input. */
  lemma WindPresent(env: Env, t: Table)
    requires Run(env, CleaningPlan, t).Ok?
    ensures WindSpeed in t.header
  {
    var t1, t2, t3, t4, t5 := Stages(env, t);
    FillWindConstants();
    FeaturesConstants();
    SetColumnsShape(env, t5, FillWind, Run(env, CleaningPlan, t).value);
    assert WindSpeed in t5.header;
    SetColumnsKeepsHeader(env, t4, Features, t5, WindSpeed);
    DropNullsShape(t2, LocationRequired, t3);
    DropNullsShape(t3, DetailRequired, t4);
    TracedToInput(env, t, t1, t2, WindSpeed);
  }

  /** None of the required columns is a timestamp column. The proof compares
      lengths only, which the solver settles much faster than string contents. */
  lemma RequiredNotTimes(c: string)
    requires c in LocationRequired + DetailRequired
    ensures c != StartTime && c != EndTime
  {
    assert c in LocationRequired || c in DetailRequired;
    assert |c| != |StartTime| && |c| != |EndTime|;
  }

  /** A successful run needs all seven required columns in the input. */
  lemma RequiredPresent(env: Env, t: Table)
    requires Run(env, CleaningPlan, t).Ok?
    ensures forall c | c in LocationRequired + DetailRequired :: c in t.header && c !in DroppedColumns
  {
    var t1, t2, t3, t4, t5 := Stages(env, t);
    DropNullsShape(t2, LocationRequired, t3);
    DropNullsShape(t3, DetailRequired, t4);
    forall c | c in LocationRequired + DetailRequired
      ensures c in t.header && c !in DroppedColumns
    {
      RequiredNotTimes(c);
      if c in LocationRequired {
        assert c in t2.header;
      } else {
        assert c in t3.header;
      }
      TracedToInput(env, t, t1, t2, c);
    }
  }

  /** A successful run needs both timestamps, every required column and the wind
      speed in the input, none of which is among the dropped columns. */
  lemma CleaningNeedsColumns(env: Env, t: Table)
    requires Run(env, CleaningPlan, t).Ok?
    ensures StartTime in t.header && EndTime in t.header && WindSpeed in t.header
    ensures forall c | c in LocationRequired + DetailRequired :: c in t.header
  {
    TimesPresent(env, t);
    WindPresent(env, t);
    RequiredPresent(env, t);
  }

  /** The parse step leaves only timestamps or nulls in the two time columns. */
  lemma ParsedTimes(env: Env, t1: Table, t2: Table)
    requires SetColumns(env, t1, ParseTimes) == Ok(t2)
    ensures forall i | 0 <= i < |t2.rows| :: TimesParsed(t2.rows[i])
  {
    SetColumnsShape(env, t1, ParseTimes, t2);
    forall i | 0 <= i < |t2.rows|
      ensures TimesParsed(t2.rows[i])
    {
      SetColumnsCellAt(env, t1, ParseTimes, t2, i, 0);
      SetColumnsCellAt(env, t1, ParseTimes, t2, i, 1);
    }
  }

  /** The feature step computes row `i`'s features from that row alone. */
  lemma FeatureRowAt(env: Env, t4: Table, t5: Table, i: nat)
    requires SetColumns(env, t4, Features) == Ok(t5)
    requires i < |t4.rows| && TimesParsed(t4.rows[i])
    ensures i < |t5.rows| && FeaturesAgree(env, t5.rows[i])
  {
    FeaturesConstants();
    SetColumnsShape(env, t4, Features, t5);
    SetColumnsKeptAt(env, t4, Features, t5, i, StartTime);
    SetColumnsKeptAt(env, t4, Features, t5, i, EndTime);
    SetColumnsCellAt(env, t4, Features, t5, i, 0);
    SetColumnsCellAt(env, t4, Features, t5, i, 1);
    SetColumnsCellAt(env, t4, Features, t5, i, 2);
    SetColumnsCellAt(env, t4, Features, t5, i, 3);
    RowFeatures(env, t4.rows[i], t5.rows[i]);
  }

  /** The feature step computes each row's features from that row alone. */
  lemma FeaturesComputed(env: Env, t4: Table, t5: Table)
    requires forall i | 0 <= i < |t4.rows| :: TimesParsed(t4.rows[i])
    requires SetColumns(env, t4, Features) == Ok(t5)
    ensures forall i | 0 <= i < |t5.rows| :: FeaturesAgree(env, t5.rows[i])
  {
    SetColumnsShape(env, t4, Features, t5);
    forall i | 0 <= i < |t5.rows|
      ensures FeaturesAgree(env, t5.rows[i])
    {
      FeatureRowAt(env, t4, t5, i);
    }
  }

  /** One row's features, from the values the feature expressions took on it. */
  lemma RowFeatures(env: Env, row: Row, row': Row)
    requires TimesParsed(row)
    requires CellAt(row', StartTime) == CellAt(row, StartTime)
    requires CellAt(row', EndTime) == CellAt(row, EndTime)
    requires Eval(env, HourOf(StartTime), row) == Ok(CellAt(row', "Hour"))
    requires Eval(env, MonthOf(StartTime), row) == Ok(CellAt(row', "Month"))
    requires Eval(env, WeekdayOf(StartTime), row) == Ok(CellAt(row', "Weekday"))
    requires Eval(env, MinutesBetween(EndTime, StartTime), row) == Ok(CellAt(row', "Duration_Minutes"))
    ensures FeaturesAgree(env, row')
  {
    var start, end := CellAt(row, StartTime), CellAt(row, EndTime);
    if start.Some? {
      assert StampAt(row, StartTime) == Ok(Some(start.value.t));
    } else {
      assert StampAt(row, StartTime) == Ok(None);
    }
    if end.Some? {
      assert StampAt(row, EndTime) == Ok(Some(end.value.t));
    } else {
      assert StampAt(row, EndTime) == Ok(None);
    }
  }

  /** `FeaturesAgree` reads six columns only. */
  lemma FeaturesAgreeFrame(env: Env, row: Row, row': Row)
    requires forall c | c in [StartTime, EndTime] + FeatureNames :: CellAt(row', c) == CellAt(row, c)
    requires FeaturesAgree(env, row)
    ensures FeaturesAgree(env, row')
  {
    assert CellAt(row', StartTime) == CellAt(row, StartTime);
    assert CellAt(row', EndTime) == CellAt(row, EndTime);
    assert CellAt(row', "Hour") == CellAt(row, "Hour");
    assert CellAt(row', "Month") == CellAt(row, "Month");
    assert CellAt(row', "Weekday") == CellAt(row, "Weekday");
    assert CellAt(row', "Duration_Minutes") == CellAt(row, "Duration_Minutes");
  }

  /** The null filters keep only rows of their input. */
  lemma FilteredRowsParsed(t2: Table, t3: Table, t4: Table)
    requires forall i | 0 <= i < |t2.rows| :: TimesParsed(t2.rows[i])
    requires FilterRows(t2, NoNulls(LocationRequired)) == Ok(t3)
    requires FilterRows(t3, NoNulls(DetailRequired)) == Ok(t4)
    ensures forall i | 0 <= i < |t4.rows| :: TimesParsed(t4.rows[i])
  {
    forall i | 0 <= i < |t4.rows|
      ensures TimesParsed(t4.rows[i])
    {
      assert t4.rows[i] in t3.rows;
      assert t4.rows[i] in t2.rows;
    }
  }

  /** Filling the wind speed leaves the features and timestamps of row `i` alone. */
  lemma WindFillKeepsFeatures(env: Env, t5: Table, out: Table, i: nat)
    requires SetColumns(env, t5, FillWind) == Ok(out)
    requires i < |t5.rows| && FeaturesAgree(env, t5.rows[i])
    ensures i < |out.rows| && FeaturesAgree(env, out.rows[i])
  {
    FillWindConstants();
    SetColumnsShape(env, t5, FillWind, out);
    forall c | c in [StartTime, EndTime] + FeatureNames
      ensures CellAt(out.rows[i], c) == CellAt(t5.rows[i], c)
    {
      assert |c| != |WindSpeed|;
      SetColumnsKeptAt(env, t5, FillWind, out, i, c);
    }
    FeaturesAgreeFrame(env, t5.rows[i], out.rows[i]);
  }

  /** Every row the chain emits carries features that agree with its own
      timestamps: `Duration_Minutes` is end minus start in whole minutes, and the
      hour, month and weekday are those of the start. */
  lemma CleanedRowsAgree(env: Env, t: Table)
    requires Run(env, CleaningPlan, t).Ok?
    ensures forall row | row in Run(env, CleaningPlan, t).value.rows :: FeaturesAgree(env, row)
  {
    var t1, t2, t3, t4, t5 := Stages(env, t);
    var out := Run(env, CleaningPlan, t).value;
    ParsedTimes(env, t1, t2);
    FilteredRowsParsed(t2, t3, t4);
    FeaturesComputed(env, t4, t5);
    SetColumnsShape(env, t5, FillWind, out);
    forall i | 0 <= i < |out.rows|
      ensures FeaturesAgree(env, out.rows[i])
    {
      WindFillKeepsFeatures(env, t5, out, i);
    }
  }

  /** The output header: the input's columns minus the thirteen dropped ones, in
      their original order, then the four features in declared order. */
  lemma CleanedHeader(env: Env, t: Table)
    requires Run(env, CleaningPlan, t).Ok?
    requires forall c | c in FeatureNames :: c !in t.header
    ensures Run(env, CleaningPlan, t).value.header == Omit(t.header, DroppedColumns) + FeatureNames
  {
    var t1, t2, t3, t4, t5 := Stages(env, t);
    var out := Run(env, CleaningPlan, t).value;
    ParseTimesConstants();
    FeaturesConstants();
    FillWindConstants();
    assert t1.header == Omit(t.header, DroppedColumns);
    SetColumnsShape(env, t1, ParseTimes, t2);
    assert t2.header == t1.header by {
      OmitAll([StartTime, EndTime], t1.header);
    }
    DropNullsShape(t2, LocationRequired, t3);
    DropNullsShape(t3, DetailRequired, t4);
    SetColumnsShape(env, t4, Features, t5);
    assert t5.header == t4.header + FeatureNames by {
      OmitNone(FeatureNames, t4.header);
    }
    SetColumnsShape(env, t5, FillWind, out);
    assert out.header == t5.header by {
      OmitAll([WindSpeed], t5.header);
    }
  }

  /** The parse step leaves the cells of every other column as they were. */
  lemma ParseKeepsCell(env: Env, t1: Table, t2: Table, i: nat, c: string)
    requires SetColumns(env, t1, ParseTimes) == Ok(t2)
    requires i < |t1.rows| && c != StartTime && c != EndTime
    ensures i < |t2.rows| && CellAt(t2.rows[i], c) == CellAt(t1.rows[i], c)
  {
    ParseTimesConstants();
    SetColumnsKeptAt(env, t1, ParseTimes, t2, i, c);
  }

  /** Dropping the unused columns and parsing the timestamps leave the required
      cells as they were in the input. */
  lemma RequiredCellsKept(env: Env, t: Table, t1: Table, t2: Table, i: nat, c: string)
    requires DropColumns(env, t, DroppedColumns) == Ok(t1)
    requires SetColumns(env, t1, ParseTimes) == Ok(t2)
    requires i < |t.rows| && c in t.header && c !in DroppedColumns
    requires c != StartTime && c != EndTime
    ensures i < |t2.rows| && CellAt(t2.rows[i], c) == CellAt(t.rows[i], c)
  {
    DroppedHeader(env, t, DroppedColumns, t1, c);
    DroppedCellAt(env, t, DroppedColumns, t1, i, c);
    ParseKeepsCell(env, t1, t2, i, c);
  }

  /** Exactly the rows with no null among the seven required columns survive,
      counted on the input: the two null filters are one conjunctive filter, and
      nothing before them changes whether a required cell is null. */
  lemma CleanedRowCount(env: Env, t: Table)
    requires Run(env, CleaningPlan, t).Ok?
    ensures |Run(env, CleaningPlan, t).value.rows| == Count(t.rows, NoNulls(LocationRequired + DetailRequired))
  {
    var required := LocationRequired + DetailRequired;
    var t1, t2, t3, t4, t5 := Stages(env, t);
    var out := Run(env, CleaningPlan, t).value;
    RequiredPresent(env, t);
    DropNullsShape(t2, LocationRequired, t3);
    DropNullsShape(t3, DetailRequired, t4);
    NullFilterPair(t2, LocationRequired, DetailRequired);
    SetColumnsShape(env, t4, Features, t5);
    SetColumnsShape(env, t5, FillWind, out);
    assert |out.rows| == Count(t2.rows, NoNulls(required));
    SetColumnsShape(env, t1, ParseTimes, t2);
    forall i | 0 <= i < |t.rows|
      ensures Holds(NoNulls(required), t.rows[i]) == Holds(NoNulls(required), t2.rows[i])
    {
      forall c | c in required
        ensures CellAt(t2.rows[i], c) == CellAt(t.rows[i], c)
      {
        RequiredNotTimes(c);
        RequiredCellsKept(env, t, t1, t2, i, c);
      }
    }
    CountAgree(t.rows, t2.rows, NoNulls(required));
  }

  /** The parse is strict: with the steps run in the order written, one start
      time that is text the parser rejects fails the whole run, whatever the other
      rows hold. */
  lemma UnparseableStartFails(env: Env, t: Table, i: nat)
    requires i < |t.rows|
    requires CellAt(t.rows[i], StartTime).Some? && CellAt(t.rows[i], StartTime).value.Text?
    requires env.parse(CellAt(t.rows[i], StartTime).value.s).None?
    ensures Run(env, CleaningPlan, t).Err?
  {
    if Run(env, CleaningPlan, t).Ok? {
      var t1, t2, t3, t4, t5 := Stages(env, t);
      ParseTimesConstants();
      SetColumnsShape(env, t1, ParseTimes, t2);
      DroppedCellAt(env, t, DroppedColumns, t1, i, StartTime);
      SetColumnsCellAt(env, t1, ParseTimes, t2, i, 0);
      assert false;
    }
  }

  /** Parsing a column reads that column's cell only. */
  lemma ParseReadsCell(env: Env, c: string, row: Row, row': Row)
    requires CellAt(row', c) == CellAt(row, c)
    ensures Eval(env, ParseTime(c), row') == Eval(env, ParseTime(c), row)
  {
  }

  /** A row after the parse step carries the parse of the same input row's start cell. */
  lemma StartParsedAt(env: Env, t: Table, t1: Table, t2: Table, k: nat)
    requires DropColumns(env, t, DroppedColumns) == Ok(t1)
    requires SetColumns(env, t1, ParseTimes) == Ok(t2)
    requires k < |t2.rows|
    ensures k < |t.rows|
    ensures Eval(env, ParseTime(StartTime), t.rows[k]) == Ok(CellAt(t2.rows[k], StartTime))
  {
    ParseTimesConstants();
    SetColumnsShape(env, t1, ParseTimes, t2);
    SetColumnsCellAt(env, t1, ParseTimes, t2, k, 0);
    DroppedCellAt(env, t, DroppedColumns, t1, k, StartTime);
    ParseReadsCell(env, StartTime, t.rows[k], t1.rows[k]);
  }

  /** The two steps after the filters leave every row's start cell alone. */
  lemma StartKeptByFeatures(env: Env, t4: Table, t5: Table, out: Table, j: nat)
    requires SetColumns(env, t4, Features) == Ok(t5)
    requires SetColumns(env, t5, FillWind) == Ok(out)
    requires j < |out.rows|
    ensures j < |t4.rows| && CellAt(out.rows[j], StartTime) == CellAt(t4.rows[j], StartTime)
  {
    FeaturesConstants();
    FillWindConstants();
    SetColumnsShape(env, t4, Features, t5);
    SetColumnsShape(env, t5, FillWind, out);
    assert |StartTime| != |WindSpeed|;
    SetColumnsKeptAt(env, t5, FillWind, out, j, StartTime);
    SetColumnsKeptAt(env, t4, Features, t5, j, StartTime);
  }

  /** A row the null filters keep is a row of their input. */
  lemma FilteredRowOrigin(t2: Table, t3: Table, t4: Table, j: nat) returns (k: nat)
    requires FilterRows(t2, NoNulls(LocationRequired)) == Ok(t3)
    requires FilterRows(t3, NoNulls(DetailRequired)) == Ok(t4)
    requires j < |t4.rows|
    ensures k < |t2.rows| && t2.rows[k] == t4.rows[j]
  {
    assert t4.rows[j] in t2.rows by {
      assert t4.rows[j] in t3.rows;
    }
    k :| 0 <= k < |t2.rows| && t2.rows[k] == t4.rows[j];
  }

  /** Row `j` of the output traced back through the filters and the parse step. */
  lemma StartTracedAt(env: Env, t: Table, t1: Table, t2: Table, t3: Table, t4: Table, t5: Table, out: Table, j: nat)
      returns (k: nat)
    requires DropColumns(env, t, DroppedColumns) == Ok(t1)
    requires SetColumns(env, t1, ParseTimes) == Ok(t2)
    requires FilterRows(t2, NoNulls(LocationRequired)) == Ok(t3)
    requires FilterRows(t3, NoNulls(DetailRequired)) == Ok(t4)
    requires SetColumns(env, t4, Features) == Ok(t5)
    requires SetColumns(env, t5, FillWind) == Ok(out)
    requires j < |out.rows|
    ensures k < |t.rows|
    ensures Eval(env, ParseTime(StartTime), t.rows[k]) == Ok(CellAt(out.rows[j], StartTime))
  {
    StartKeptByFeatures(env, t4, t5, out, j);
    k := FilteredRowOrigin(t2, t3, t4, j);
    StartParsedAt(env, t, t1, t2, k);
  }

  /** Every start time the chain emits is what parsing some input row's start
      cell gave: the parser's timestamp for a text, null for a null. */
  lemma ParsedStartsTraced(env: Env, t: Table)
    requires Run(env, CleaningPlan, t).Ok?
    ensures forall row | row in Run(env, CleaningPlan, t).value.rows ::
      exists i | 0 <= i < |t.rows| :: Eval(env, ParseTime(StartTime), t.rows[i]) == Ok(CellAt(row, StartTime))
  {
    var t1, t2, t3, t4, t5 := Stages(env, t);
    var out := Run(env, CleaningPlan, t).value;
    forall j | 0 <= j < |out.rows|
      ensures exists i | 0 <= i < |t.rows| :: Eval(env, ParseTime(StartTime), t.rows[i]) == Ok(CellAt(out.rows[j], StartTime))
    {
      var k := StartTracedAt(env, t, t1, t2, t3, t4, t5, out, j);
    }
  }

  /** The script's outcome. The row counts and percentage are only reported after
      the sink has written the output, so an empty input leaves an (empty) output
      behind and then fails on the percentage. */
  datatype CleanOutcome =
    | Reported(output: Table, rawRows: nat, cleanRows: nat, droppedRows: nat, percentDropped: real)
    | FailedAfterSink(output: Table)
    | FailedWithoutOutput(cause: CleanError)

  /** Why no output was written. A missing or unreadable source fails when the raw
      rows are counted, before the query is built; a plan error surfaces when the
      lazy query is executed by the sink, which is modelled as writing nothing. */
  datatype CleanError = SourceUnavailable | PlanFailed(error: PlanError)

  /** The whole strict-cleaning script over a source file (`None` when absent). */
  function StrictClean(env: Env, source: Option<FileContent>): (r: CleanOutcome)
    ensures source.None? || source == Some(Corrupt) ==> r == FailedWithoutOutput(SourceUnavailable)
    ensures source.Some? && source.value.Csv? && Run(env, CleaningPlan, source.value.table).Err? ==>
      r == FailedWithoutOutput(PlanFailed(Run(env, CleaningPlan, source.value.table).error))
    ensures (source.Some? && source.value.Csv? && |source.value.table.rows| == 0
             && Run(env, CleaningPlan, source.value.table).Ok?) ==>
      r == FailedAfterSink(Run(env, CleaningPlan, source.value.table).value)
    ensures r.Reported? ==>
      && source.Some? && source.value.Csv?
      && r.rawRows == |source.value.table.rows| > 0
      && r.cleanRows == |r.output.rows| <= r.rawRows
      && r.droppedRows == r.rawRows - r.cleanRows
      && r.percentDropped == (r.droppedRows as real / r.rawRows as real) * 100.0
    ensures r.FailedAfterSink? ==>
      source.Some? && source.value.Csv? && |source.value.table.rows| == 0 && |r.output.rows| == 0
  {
    match source
    case None => FailedWithoutOutput(SourceUnavailable)
    case Some(Corrupt) => FailedWithoutOutput(SourceUnavailable)
    case Some(Csv(raw)) =>
      var rawRows := |raw.rows|;
      match Run(env, CleaningPlan, raw)
      case Err(e) => FailedWithoutOutput(PlanFailed(e))
      case Ok(out) =>
        var cleanRows := |out.rows|;
        if rawRows == 0 then FailedAfterSink(out)
        else
          var dropped := rawRows - cleanRows;
          Reported(out, rawRows, cleanRows, dropped, (dropped as real / rawRows as real) * 100.0)
  }

  /** The script with the percentage guarded against an empty input: whenever the
      query succeeds the run is reported, an empty input as nothing dropped. */
  function StrictCleanGuarded(env: Env, source: Option<FileContent>): (r: CleanOutcome)
    ensures !r.FailedAfterSink?
    ensures source.None? || source == Some(Corrupt) ==> r == FailedWithoutOutput(SourceUnavailable)
    ensures source.Some? && source.value.Csv? && Run(env, CleaningPlan, source.value.table).Err? ==>
      r == FailedWithoutOutput(PlanFailed(Run(env, CleaningPlan, source.value.table).error))
    ensures source.Some? && source.value.Csv? && Run(env, CleaningPlan, source.value.table).Ok? ==>
      && r.Reported?
      && r.output == Run(env, CleaningPlan, source.value.table).value
      && r.rawRows == |source.value.table.rows|
      && r.cleanRows == |r.output.rows| <= r.rawRows
      && r.droppedRows == r.rawRows - r.cleanRows
      && (r.rawRows == 0 ==> r.percentDropped == 0.0)
      && (r.rawRows > 0 ==> r.percentDropped == (r.droppedRows as real / r.rawRows as real) * 100.0)
  {
    if source.None? || source.value.Corrupt? then FailedWithoutOutput(SourceUnavailable)
    else
      var raw := source.value.table;
      var run := Run(env, CleaningPlan, raw);
      if run.Err? then FailedWithoutOutput(PlanFailed(run.error))
      else
        var dropped := |raw.rows| - |run.value.rows|;
        var percent := if |raw.rows| == 0 then 0.0 else (dropped as real / |raw.rows| as real) * 100.0;
        Reported(run.value, |raw.rows|, |run.value.rows|, dropped, percent)
  }

  /** The guard changes nothing but the empty-input case, which it reports as
      nothing dropped instead of failing after the sink. */
  lemma GuardedCleanAgrees(env: Env, source: Option<FileContent>)
    ensures !StrictClean(env, source).FailedAfterSink? ==> StrictCleanGuarded(env, source) == StrictClean(env, source)
    ensures StrictClean(env, source).FailedAfterSink? ==>
      StrictCleanGuarded(env, source) == Reported(StrictClean(env, source).output, 0, 0, 0, 0.0)
  {
  }

  /** The columns the chain reads, apart from those it drops. */
  const CleaningColumns: seq<string> := [StartTime, EndTime, WindSpeed] + LocationRequired + DetailRequired

  lemma CleaningColumnsKept()
    ensures forall c | c in CleaningColumns :: c !in DroppedColumns
  {
  }

  lemma FeatureInputs()
    ensures forall c | c in InputsOf(Features) :: c == StartTime || c == EndTime
  {
    var f := Features;
    assert InputsOf(f) == [StartTime] + InputsOf(f[1..]);
    assert InputsOf(f[1..]) == [StartTime] + InputsOf(f[2..]);
    assert InputsOf(f[2..]) == [StartTime] + InputsOf(f[3..]);
    assert InputsOf(f[3..]) == [EndTime, StartTime] + InputsOf(f[4..]);
    assert f[4..] == [];
  }

  lemma FeatureNamesDistinct()
    ensures Distinct(NamesOf(Features))
  {
    FeaturesConstants();
    var f := FeatureNames;
    assert |f[0]| == 4 && |f[1]| == 5 && |f[2]| == 7 && |f[3]| == 16;
  }

  /** With no rows, the feature step and the wind fill succeed once the header
      has both timestamps and the wind speed. */
  lemma EmptyLateStages(env: Env, t4: Table) returns (t5: Table)
    requires |t4.rows| == 0
    requires StartTime in t4.header && EndTime in t4.header && WindSpeed in t4.header
    ensures SetColumns(env, t4, Features) == Ok(t5)
    ensures SetColumns(env, t5, FillWind).Ok?
  {
    FeatureInputs();
    FeatureNamesDistinct();
    SetColumnsNoRows(env, t4, Features);
    t5 := SetColumns(env, t4, Features).value;
    assert t4.header <= t5.header;
    FillWindConstants();
    SetColumnsNoRows(env, t5, FillWind);
  }

  /** With no data rows, the chain succeeds as soon as the input has the columns
      it reads (and, when dropping is strict, the columns it drops). */
  lemma EmptyRunSucceeds(env: Env, raw: Table)
    requires |raw.rows| == 0
    requires forall c | c in CleaningColumns :: c in raw.header
    requires env.policy.IgnoreAbsent? || forall c | c in DroppedColumns :: c in raw.header
    ensures Run(env, CleaningPlan, raw).Ok?
  {
    CleaningColumnsKept();
    var t1 := DropColumns(env, raw, DroppedColumns).value;
    assert forall c | c in CleaningColumns :: c in t1.header;
    ParseTimesConstants();
    SetColumnsNoRows(env, t1, ParseTimes);
    var t2 := SetColumns(env, t1, ParseTimes).value;
    assert t1.header <= t2.header;
    var t3 := FilterRows(t2, NoNulls(LocationRequired)).value;
    var t4 := FilterRows(t3, NoNulls(DetailRequired)).value;
    var t5 := EmptyLateStages(env, t4);
    FromStages(env, raw, t1, t2, t3, t4, t5);
  }

  /** A source with the cleaning columns and no data rows: the script writes the
      empty output and then fails on the percentage, where the guarded script
      reports nothing dropped. */
  lemma EmptyInputFailsAfterSink(env: Env, raw: Table)
    requires |raw.rows| == 0
    requires forall c | c in CleaningColumns :: c in raw.header
    requires env.policy.IgnoreAbsent? || forall c | c in DroppedColumns :: c in raw.header
    ensures Run(env, CleaningPlan, raw).Ok?
    ensures StrictClean(env, Some(Csv(raw))) == FailedAfterSink(Run(env, CleaningPlan, raw).value)
    ensures StrictCleanGuarded(env, Some(Csv(raw))) == Reported(Run(env, CleaningPlan, raw).value, 0, 0, 0, 0.0)
  {
    EmptyRunSucceeds(env, raw);
  }

  /** A non-empty input that the plan accepts is reported: the reported clean
      count is the number of input rows with no null required cell, and the
      dropped count is the rest. */
  lemma ReportedCounts(env: Env, raw: Table)
    requires Run(env, CleaningPlan, raw).Ok? && |raw.rows| > 0
    ensures var r := StrictClean(env, Some(Csv(raw)));
      && r.Reported?
      && r.output == Run(env, CleaningPlan, raw).value
      && r.cleanRows == Count(raw.rows, NoNulls(LocationRequired + DetailRequired))
      && r.droppedRows == |raw.rows| - r.cleanRows
  {
    CleanedRowCount(env, raw);
  }
}

=== FILE: clock.dfy ===
/** Timestamps and their decomposition. A parsed timestamp is a whole number of
    seconds since 1970-01-01 00:00:00 (no time zone). The hour of the day and the
    ISO weekday follow from that number directly; the civil year and month need
    calendar rules, which enter as a `Calendar` parameter. */
module Clock {

  const SecondsPerMinute: int := 60
  const SecondsPerHour: int := 3600
  const SecondsPerDay: int := 86400

  type MonthNumber = m: int | 1 <= m <= 12 witness 1

  /** Monday is 1, Sunday is 7. */
  type IsoWeekday = d: int | 1 <= d <= 7 witness 1

  /** The calendar rules that turn a timestamp into its civil year and month. */
  datatype Calendar = Calendar(yearOf: int -> int, monthOf: int -> MonthNumber)

  const MonthNames: seq<string> := [
    "January", "February", "March", "April", "May", "June",
    "July", "August", "September", "October", "November", "December"
  ]

  const DayNames: seq<string> := [
    "Monday", "Tuesday", "Wednesday", "Thursday", "Friday", "Saturday", "Sunday"
  ]

  /** The hour of the day, 0 to 23: the hour-long slice of its day that `t` falls in. */
  function HourOfDay(t: int): (h: int)
    ensures 0 <= h < 24
    ensures h * SecondsPerHour <= t % SecondsPerDay < (h + 1) * SecondsPerHour
  {
    (t % SecondsPerDay) / SecondsPerHour
  }

  /** The ISO weekday. Day 0 of the epoch was a Thursday (4), and every
      later or earlier day moves the weekday along by one, modulo 7. */
  function Weekday(t: int): (d: IsoWeekday)
    ensures (d - 4 - t / SecondsPerDay) % 7 == 0
  {
    (t / SecondsPerDay + 3) % 7 + 1
  }

  /** A span of seconds in whole minutes, the fraction dropped (toward zero). */
  function WholeMinutes(seconds: int): (m: int)
    ensures seconds >= 0 ==> m >= 0 && 0 <= seconds - m * SecondsPerMinute < SecondsPerMinute
    ensures seconds < 0 ==> m <= 0 && -SecondsPerMinute < seconds - m * SecondsPerMinute <= 0
  {
    if seconds >= 0 then seconds / SecondsPerMinute else -((-seconds) / SecondsPerMinute)
  }

  /** Whole days in a non-negative span of seconds, the fraction dropped. */
  function WholeDays(seconds: nat): (d: nat)
    ensures d * SecondsPerDay <= seconds < (d + 1) * SecondsPerDay
  {
    seconds / SecondsPerDay
  }

  function MonthName(m: MonthNumber): (name: string)
    ensures name in MonthNames
  {
    MonthNames[m - 1]
  }

  function DayName(d: IsoWeekday): (name: string)
    ensures name in DayNames
  {
    DayNames[d - 1]
  }

  /** A whole day later gives the next weekday and the same hour. */
  lemma NextDay(t: int)
    ensures Weekday(t + SecondsPerDay) == Weekday(t) % 7 + 1
    ensures HourOfDay(t + SecondsPerDay) == HourOfDay(t)
  {
    assert (t + SecondsPerDay) / SecondsPerDay == t / SecondsPerDay + 1;
    assert (t + SecondsPerDay) % SecondsPerDay == t % SecondsPerDay;
  }
}

=== FILE: dashboard.dfy ===
/** The data side of the dashboard in main.py: loading the state file with its
    derived time columns (or an empty fallback table), and the numbers the KPI
    boxes and plots are drawn from. The dashboard never filters, so every output
    reads the loaded table as it is. */
module Dashboard {
  import opened Tables
  import opened Clock
  import Plan

  const YearColumn: string := "Year"
  const MonthColumn: string := "Month"
  const DayColumn: string := "DayOfWeek"
  const HourColumn: string := "Hour"

  /** The columns derived from `Start_Time`, in the order they are added. */
  const DerivedNames: seq<string> := [YearColumn, MonthColumn, DayColumn, HourColumn]

  /** The schema of the table used when there is nothing to show. */
  const FallbackHeader: seq<string> := [
    StartTime, "Severity", "Start_Lat", "Start_Lng", YearColumn, MonthColumn, DayColumn, HourColumn
  ]

  const Fallback: Table := Table(FallbackHeader, [])

  /** More rows than this are sampled down to this many before mapping. */
  const MapLimit: nat := 10000

  /** The points of interest with a pie each, in grid order. */
  const PoiNames: seq<string> := ["Junction", "Crossing", "Traffic_Signal", "Stop"]

  /** `to_datetime(errors='coerce')` on one cell: text that parses becomes a
      timestamp, a timestamp stays, anything else becomes null. */
  function Coerce(parse: string -> Option<int>, c: Cell): (r: Cell)
    ensures r.Some? ==> r.value.Time?
    ensures c.None? ==> r.None?
    ensures forall s | c == Some(Text(s)) :: r.None? <==> parse(s).None?
    ensures forall s | c == Some(Text(s)) && parse(s).Some? :: r == Some(Time(parse(s).value))
    ensures c.Some? && c.value.Time? ==> r == c
    ensures c.Some? && !c.value.Text? && !c.value.Time? ==> r.None?
  {
    match c
    case Some(Text(s)) =>
      (match parse(s)
       case Some(t) => Some(Time(t))
       case None => None)
    case Some(Time(t)) => Some(Time(t))
    case _ => None
  }

  /** The dashboard's lenient parse agrees with the cleaning chain's strict one
      wherever the strict one succeeds. Where the strict one fails, the lenient
      one gives null, except that it keeps a cell that is already a timestamp. */
  lemma CoerceExtendsStrictParse(env: Plan.Env, row: Row, c: string)
    ensures Plan.Eval(env, Plan.ParseTime(c), row).Ok? ==>
      Coerce(env.parse, CellAt(row, c)) == Plan.Eval(env, Plan.ParseTime(c), row).value
    ensures Plan.Eval(env, Plan.ParseTime(c), row).Err? ==>
      Coerce(env.parse, CellAt(row, c)) ==
        if CellAt(row, c).Some? && CellAt(row, c).value.Time? then CellAt(row, c) else None
  {
  }

  /** The derived cells for one coerced `Start_Time`: all null for a null start. */
  function DerivedCells(cal: Calendar, start: Cell): (r: Row)
    requires start.Some? ==> start.value.Time?
    ensures r.Keys == Names(DerivedNames)
  {
    match start
    case Some(Time(t)) =>
      map[YearColumn := Some(Int(cal.yearOf(t))),
          MonthColumn := Some(Text(MonthName(cal.monthOf(t)))),
          DayColumn := Some(Text(DayName(Weekday(t)))),
          HourColumn := Some(Int(HourOfDay(t)))]
    case _ =>
      map[YearColumn := None, MonthColumn := None, DayColumn := None, HourColumn := None]
  }

  /** One row after preprocessing: `Start_Time` coerced in place, the four
      derived columns set from it. */
  function LoadRow(parse: string -> Option<int>, cal: Calendar, row: Row): Row {
    var start := Coerce(parse, CellAt(row, StartTime));
    row[StartTime := start] + DerivedCells(cal, start)
  }

  /** A row's derived cells are those of its own `Start_Time`. */
  predicate DerivedAgree(cal: Calendar, row: Row) {
    var start := CellAt(row, StartTime);
    && (start.Some? ==> start.value.Time?)
    && (start.None? ==>
          && CellAt(row, YearColumn).None? && CellAt(row, MonthColumn).None?
          && CellAt(row, DayColumn).None? && CellAt(row, HourColumn).None?)
    && (start.Some? && start.value.Time? ==>
          && CellAt(row, YearColumn) == Some(Int(cal.yearOf(start.value.t)))
          && CellAt(row, MonthColumn) == Some(Text(MonthName(cal.monthOf(start.value.t))))
          && CellAt(row, DayColumn) == Some(Text(DayName(Weekday(start.value.t))))
          && CellAt(row, HourColumn) == Some(Int(HourOfDay(start.value.t))))
  }

  /** When the dashboard shows the fallback table instead of the file: the file
      is missing, cannot be read, has no `Start_Time` column, or has no rows. */
  predicate FallsBack(file: Option<FileContent>) {
    || file.None?
    || file.value.Corrupt?
    || StartTime !in file.value.table.header
    || |file.value.table.rows| == 0
  }

  /** Loading and preprocessing, with the fallback for every way it can come up empty. */
  function Load(file: Option<FileContent>, parse: string -> Option<int>, cal: Calendar): (r: Table)
    ensures r == Fallback <==> FallsBack(file)
    ensures !FallsBack(file) ==>
      && r.header == AppendNames(file.value.table.header, DerivedNames)
      && |r.rows| == |file.value.table.rows|
      && forall i | 0 <= i < |r.rows| :: r.rows[i] == LoadRow(parse, cal, file.value.table.rows[i])
  {
    match file
    case None => Fallback
    case Some(Corrupt) => Fallback
    case Some(Csv(t)) =>
      if StartTime !in t.header || |t.rows| == 0 then Fallback
      else
        var rows := seq(|t.rows|, i requires 0 <= i < |t.rows| => LoadRow(parse, cal, t.rows[i]));
        Table(AppendNames(t.header, DerivedNames), rows)
  }

  lemma HeadersDistinct()
    ensures Distinct(DerivedNames) && Distinct(FallbackHeader)
  {
  }

  /** A loaded row has the file row's columns, `Start_Time` and the derived columns. */
  lemma LoadedRowKeys(parse: string -> Option<int>, cal: Calendar, row: Row)
    ensures LoadRow(parse, cal, row).Keys == row.Keys + {StartTime} + Names(DerivedNames)
  {
  }

  /** A loaded row coerces `Start_Time` and carries the derived cells of its own start. */
  lemma LoadedRowStart(parse: string -> Option<int>, cal: Calendar, row: Row)
    ensures var r := LoadRow(parse, cal, row);
      && CellAt(r, StartTime) == Coerce(parse, CellAt(row, StartTime))
      && DerivedAgree(cal, r)
  {
    var start := Coerce(parse, CellAt(row, StartTime));
    assert StartTime !in DerivedCells(cal, start);
  }

  /** A loaded row keeps every cell outside `Start_Time` and the derived columns. */
  lemma LoadedRowFrame(parse: string -> Option<int>, cal: Calendar, row: Row, c: string)
    requires c != StartTime && c !in DerivedNames
    ensures CellAt(LoadRow(parse, cal, row), c) == CellAt(row, c)
  {
    assert c !in DerivedCells(cal, Coerce(parse, CellAt(row, StartTime)));
  }

  /** The loaded table is well formed when the file's table is, and so is the fallback. */
  lemma LoadWellFormed(file: Option<FileContent>, parse: string -> Option<int>, cal: Calendar)
    requires file.Some? && file.value.Csv? ==> WellFormed(file.value.table)
    ensures WellFormed(Load(file, parse, cal))
  {
    HeadersDistinct();
    var r := Load(file, parse, cal);
    if !FallsBack(file) {
      var t := file.value.table;
      forall i | 0 <= i < |r.rows|
        ensures r.rows[i].Keys == Names(r.header)
      {
        LoadedRowKeys(parse, cal, t.rows[i]);
      }
    }
  }

  /** Every loaded row's derived cells follow from its own `Start_Time`; an
      unparseable start is a null start with null derived cells, not a failed
      load; the hour lies in 0..23, and the month and day names come from the
      fixed name lists. */
  lemma LoadedRowsAgree(file: Option<FileContent>, parse: string -> Option<int>, cal: Calendar, i: nat)
    requires !FallsBack(file) && i < |file.value.table.rows|
    ensures var row, r := file.value.table.rows[i], Load(file, parse, cal).rows[i];
      && DerivedAgree(cal, r)
      && (forall s | CellAt(row, StartTime) == Some(Text(s)) && parse(s).None? ::
            CellAt(r, StartTime).None? && CellAt(r, HourColumn).None?)
      && (CellAt(r, HourColumn).Some? ==> exists h :: 0 <= h < 24 && CellAt(r, HourColumn) == Some(Int(h)))
      && (CellAt(r, MonthColumn).Some? ==> exists m | m in MonthNames :: CellAt(r, MonthColumn) == Some(Text(m)))
      && (CellAt(r, DayColumn).Some? ==> exists d | d in DayNames :: CellAt(r, DayColumn) == Some(Text(d)))
  {
    var row := file.value.table.rows[i];
    LoadedRowStart(parse, cal, row);
    var r := Load(file, parse, cal).rows[i];
    var start := CellAt(r, StartTime);
    if start.Some? {
      var t := start.value.t;
      assert CellAt(r, HourColumn) == Some(Int(HourOfDay(t)));
      assert CellAt(r, MonthColumn) == Some(Text(MonthName(cal.monthOf(t))));
      assert CellAt(r, DayColumn) == Some(Text(DayName(Weekday(t))));
    }
  }

  /** Loading keeps every file cell outside `Start_Time` and the derived columns. */
  lemma LoadKeepsCells(file: Option<FileContent>, parse: string -> Option<int>, cal: Calendar, i: nat, c: string)
    requires !FallsBack(file) && i < |file.value.table.rows|
    requires c != StartTime && c !in DerivedNames
    ensures CellAt(Load(file, parse, cal).rows[i], c) == CellAt(file.value.table.rows[i], c)
  {
    LoadedRowFrame(parse, cal, file.value.table.rows[i], c);
  }

  /** Every hour cell of a loaded table is null or an hour of the day. */
  lemma LoadedHours(file: Option<FileContent>, parse: string -> Option<int>, cal: Calendar)
    ensures HoursOfDay(Load(file, parse, cal))
  {
    var t := Load(file, parse, cal);
    if !FallsBack(file) {
      forall i | 0 <= i < |t.rows|
        ensures CellAt(t.rows[i], HourColumn).None? || exists h :: 0 <= h < 24 && CellAt(t.rows[i], HourColumn) == Some(Int(h))
      {
        LoadedRowsAgree(file, parse, cal, i);
      }
    }
  }

  // ---------------------------------------------------------------------------
  // KPI boxes
  // ---------------------------------------------------------------------------

  /** The `Start_Time` timestamps of the rows, nulls skipped, in row order. */
  function Stamps(rows: seq<Row>): (r: seq<int>)
    ensures forall i | 0 <= i < |rows| && CellAt(rows[i], StartTime).Some? && CellAt(rows[i], StartTime).value.Time? ::
      CellAt(rows[i], StartTime).value.t in r
    ensures forall x | x in r :: exists i | 0 <= i < |rows| :: CellAt(rows[i], StartTime) == Some(Time(x))
  {
    if |rows| == 0 then []
    else
      var rest := Stamps(rows[1..]);
      assert forall i | 1 <= i < |rows| :: rows[i] == rows[1..][i - 1];
      match CellAt(rows[0], StartTime)
      case Some(Time(t)) => [t] + rest
      case _ => rest
  }

  function Earliest(s: seq<int>): (m: int)
    requires |s| > 0
    ensures m in s && forall x | x in s :: m <= x
  {
    if |s| == 1 then s[0]
    else
      var rest := Earliest(s[1..]);
      assert s == [s[0]] + s[1..];
      if s[0] <= rest then s[0] else rest
  }

  function Latest(s: seq<int>): (m: int)
    requires |s| > 0
    ensures m in s && forall x | x in s :: x <= m
  {
    if |s| == 1 then s[0]
    else
      var rest := Latest(s[1..]);
      assert s == [s[0]] + s[1..];
      if s[0] >= rest then s[0] else rest
  }

  /** An average KPI: "0" for an empty table, "nan" when no row has a start time
      (the span of no timestamps is undefined), and otherwise the row count over
      a divisor. */
  datatype Kpi = Zero | Undefined | Average(accidents: nat, divisor: nat)

  /** The number of days the data spans, in whole days (floored), at least 1. */
  function DayDivisor(stamps: seq<int>): (d: nat)
    requires |stamps| > 0
    ensures d >= 1
    ensures var span := Latest(stamps) - Earliest(stamps);
      var clamped := if span < SecondsPerDay then SecondsPerDay else span;
      d * SecondsPerDay <= clamped < (d + 1) * SecondsPerDay
  {
    var days := WholeDays(Latest(stamps) - Earliest(stamps));
    if days < 1 then 1 else days
  }

  /** Accidents per day. */
  function DailyKpi(t: Table): (r: Kpi)
    ensures r.Zero? <==> Empty(t)
    ensures r.Undefined? <==> !Empty(t) && |Stamps(t.rows)| == 0
    ensures r.Average? ==> r.accidents == |t.rows| > 0 && r.divisor == DayDivisor(Stamps(t.rows))
  {
    if Empty(t) then Zero
    else
      var stamps := Stamps(t.rows);
      if |stamps| == 0 then Undefined else Average(|t.rows|, DayDivisor(stamps))
  }

  /** Accidents per hour slot per day: the same count over 24 times the day divisor. */
  function HourlyKpi(t: Table): (r: Kpi)
    ensures r.Zero? <==> DailyKpi(t).Zero?
    ensures r.Undefined? <==> DailyKpi(t).Undefined?
    ensures r.Average? ==>
      && DailyKpi(t).Average?
      && r.accidents == DailyKpi(t).accidents
      && r.divisor == 24 * DailyKpi(t).divisor >= 24
  {
    if Empty(t) then Zero
    else
      var stamps := Stamps(t.rows);
      if |stamps| == 0 then Undefined else Average(|t.rows|, 24 * DayDivisor(stamps))
  }

  /** On the loaded table the KPI boxes read "0" exactly when the dashboard fell
      back to the empty table, and "nan" exactly when no start time parsed. */
  lemma LoadedKpi(file: Option<FileContent>, parse: string -> Option<int>, cal: Calendar)
    ensures var t := Load(file, parse, cal);
      && (DailyKpi(t).Zero? <==> FallsBack(file))
      && (DailyKpi(t).Undefined? <==>
            !FallsBack(file) && forall i | 0 <= i < |t.rows| :: CellAt(t.rows[i], StartTime).None?)
  {
    var t := Load(file, parse, cal);
    if !FallsBack(file) {
      assert t.header[0] == file.value.table.header[0];
      forall i | 0 <= i < |t.rows|
        ensures CellAt(t.rows[i], StartTime).Some? ==> CellAt(t.rows[i], StartTime).value.Time?
      {
        LoadedRowsAgree(file, parse, cal, i);
      }
    }
  }

  // ---------------------------------------------------------------------------
  // Plots
  // ---------------------------------------------------------------------------

  /** The rows handed to the map. `order` stands for the random draw of
      `sample`: a shuffle of the row positions, of which the first `MapLimit`
      are taken when there are more rows than that. */
  function MapData(t: Table, order: seq<nat>): (r: seq<Row>)
    requires |order| == |t.rows| && Distinct(order)
    requires forall k | 0 <= k < |order| :: order[k] < |t.rows|
    ensures |r| <= MapLimit && |r| <= |t.rows|
    ensures Empty(t) ==> r == []
    ensures !Empty(t) && |t.rows| <= MapLimit ==> r == t.rows
    ensures !Empty(t) && |t.rows| > MapLimit ==>
      && |r| == MapLimit
      && forall k | 0 <= k < MapLimit :: r[k] == t.rows[order[k]]
    ensures forall row | row in r :: row in t.rows
  {
    if Empty(t) then []
    else if |t.rows| <= MapLimit then t.rows
    else seq(MapLimit, k requires 0 <= k < MapLimit => t.rows[order[k]])
  }

  /** The tally of one column: its distinct non-null values, each with the
      number of rows holding it. */
  datatype Tally = Tally(values: seq<Value>, counts: seq<nat>)

  /** `Tally` is the tally of column `col` over `rows`. */
  predicate Tallies(tally: Tally, rows: seq<Row>, col: string) {
    && |tally.counts| == |tally.values|
    && Distinct(tally.values)
    && (forall k | 0 <= k < |tally.values| ::
          tally.counts[k] == Count(rows, Equals(col, tally.values[k])) > 0)
    && (forall i | 0 <= i < |rows| && CellAt(rows[i], col).Some? :: CellAt(rows[i], col).value in tally.values)
  }

  /** `value_counts` of one column, the values in order of first appearance. */
  method ValueCounts(rows: seq<Row>, col: string) returns (tally: Tally)
    ensures Tallies(tally, rows, col)
  {
    tally := Tally([], []);
    var i := 0;
    while i < |rows|
      invariant 0 <= i <= |rows|
      invariant Tallies(tally, rows[..i], col)
    {
      TallySnoc(tally, rows[..i], rows[i], col);
      assert rows[..i + 1] == rows[..i] + [rows[i]];
      tally := Bump(tally, CellAt(rows[i], col));
      i := i + 1;
    }
    assert rows[..i] == rows;
  }

  /** The tally after one more cell: a new value is appended with count 1, a
      known one has its count raised, a null changes nothing. */
  function Bump(tally: Tally, cell: Cell): Tally
    requires |tally.counts| == |tally.values|
  {
    match cell
    case None => tally
    case Some(v) =>
      var k := Find(tally.values, v);
      if k == |tally.values| then Tally(tally.values + [v], tally.counts + [1])
      else Tally(tally.values, tally.counts[k := tally.counts[k] + 1])
  }

  /** Counting is decided row by row. */
  lemma CountSnoc(rows: seq<Row>, row: Row, col: string, v: Value)
    ensures Count(rows + [row], Equals(col, v)) ==
      Count(rows, Equals(col, v)) + (if CellAt(row, col) == Some(v) then 1 else 0)
  {
    WhereSnoc(rows, row, Equals(col, v));
  }

  /** A value the tally does not list occurs in no row. */
  lemma AbsentCountsZero(tally: Tally, rows: seq<Row>, col: string, v: Value)
    requires Tallies(tally, rows, col) && v !in tally.values
    ensures Count(rows, Equals(col, v)) == 0
  {
    forall i | 0 <= i < |rows|
      ensures !Holds(Equals(col, v), rows[i])
    {
    }
    WhereNone(rows, Equals(col, v));
  }

  /** Bumping by the next row's cell tallies the longer prefix. */
  lemma TallySnoc(tally: Tally, rows: seq<Row>, row: Row, col: string)
    requires Tallies(tally, rows, col)
    ensures Tallies(Bump(tally, CellAt(row, col)), rows + [row], col)
  {
    var cell := CellAt(row, col);
    var next := Bump(tally, cell);
    var rows' := rows + [row];
    forall k | 0 <= k < |next.values|
      ensures next.counts[k] == Count(rows', Equals(col, next.values[k])) > 0
    {
      var u := next.values[k];
      CountSnoc(rows, row, col, u);
      if cell.Some? {
        var p := Find(tally.values, cell.value);
        if p == |tally.values| && k == p {
          AbsentCountsZero(tally, rows, col, u);
        } else if k != p {
          assert u == tally.values[k] && next.counts[k] == tally.counts[k];
          assert cell != Some(u);
        }
      }
    }
    forall i | 0 <= i < |rows'| && CellAt(rows'[i], col).Some?
      ensures CellAt(rows'[i], col).value in next.values
    {
      if i < |rows| {
        assert rows'[i] == rows[i];
      }
    }
  }

  /** The position of `v` in `s`, or `|s|` when absent. */
  function Find(s: seq<Value>, v: Value): (k: nat)
    ensures k <= |s|
    ensures k < |s| ==> s[k] == v
    ensures k == |s| ==> v !in s
  {
    if |s| == 0 then 0
    else if s[0] == v then 0
    else 1 + Find(s[1..], v)
  }

  /** One pie of the POI grid: the feature, its slot in the 2x2 grid, and its tally. */
  datatype Pie = Pie(poi: string, slot: nat, tally: Tally)

  /** The pies drawn for the features `names` of the grid `grid`: one for each
      feature the table has, in order, each in the grid slot of its feature and
      holding the tally of its column. */
  predicate PiesFor(pies: seq<Pie>, t: Table, names: seq<string>, grid: seq<string>) {
    && |pies| == |Keep(names, t.header)|
    && forall k | 0 <= k < |pies| ::
         && pies[k].poi == Keep(names, t.header)[k]
         && pies[k].slot < |grid|
         && grid[pies[k].slot] == pies[k].poi
         && Tallies(pies[k].tally, t.rows, pies[k].poi)
  }

  /** One more feature the table has: its pie is added. */
  lemma PiesAdd(pies: seq<Pie>, t: Table, names: seq<string>, grid: seq<string>, pie: Pie)
    requires PiesFor(pies, t, names, grid) && pie.poi in t.header
    requires pie.slot < |grid| && grid[pie.slot] == pie.poi
    requires Tallies(pie.tally, t.rows, pie.poi)
    ensures PiesFor(pies + [pie], t, names + [pie.poi], grid)
  {
    KeepSnoc(names, pie.poi, t.header);
  }

  /** One more feature the table lacks: no pie is added. */
  lemma PiesSkip(pies: seq<Pie>, t: Table, names: seq<string>, grid: seq<string>, poi: string)
    requires PiesFor(pies, t, names, grid) && poi !in t.header
    ensures PiesFor(pies, t, names + [poi], grid)
  {
    KeepSnoc(names, poi, t.header);
  }

  /** `poi_plot`: a pie for each listed feature the table has, in list order, in
      the grid slot of that feature; nothing at all for an empty table. */
  method PoiPies(t: Table) returns (pies: seq<Pie>)
    ensures Empty(t) ==> pies == []
    ensures !Empty(t) ==> PiesFor(pies, t, PoiNames, PoiNames)
  {
    pies := [];
    if Empty(t) {
      return;
    }
    var i := 0;
    while i < |PoiNames|
      invariant 0 <= i <= |PoiNames|
      invariant PiesFor(pies, t, PoiNames[..i], PoiNames)
    {
      var poi := PoiNames[i];
      assert PoiNames[..i + 1] == PoiNames[..i] + [poi];
      if poi in t.header {
        var tally := ValueCounts(t.rows, poi);
        PiesAdd(pies, t, PoiNames[..i], PoiNames, Pie(poi, i, tally));
        pies := pies + [Pie(poi, i, tally)];
      } else {
        PiesSkip(pies, t, PoiNames[..i], PoiNames, poi);
      }
      i := i + 1;
    }
    assert PoiNames[..i] == PoiNames;
  }

  /** Keeping is decided element by element. */
  lemma {:induction false} KeepSnoc(s: seq<string>, c: string, allowed: seq<string>)
    ensures Keep(s + [c], allowed) == Keep(s, allowed) + (if c in allowed then [c] else [])
  {
    if |s| == 0 {
      assert s + [c] == [c];
    } else {
      assert (s + [c])[1..] == s[1..] + [c];
      KeepSnoc(s[1..], c, allowed);
    }
  }

  /** `value_counts().reindex(order)`: for each name of the fixed order, the
      number of rows holding it, or no number (NaN) when no row does. */
  function Reindex(tally: Tally, order: seq<string>): (r: seq<Option<nat>>)
    requires |tally.counts| == |tally.values|
    ensures |r| == |order|
    ensures forall k | 0 <= k < |order| :: r[k].Some? <==> Text(order[k]) in tally.values
    ensures Distinct(tally.values) ==>
      forall k, p | 0 <= k < |order| && 0 <= p < |tally.values| && tally.values[p] == Text(order[k]) ::
        r[k] == Some(tally.counts[p])
  {
    seq(|order|, k requires 0 <= k < |order| =>
      var p := Find(tally.values, Text(order[k]));
      if p < |tally.values| then Some(tally.counts[p]) else None)
  }

  /** The bar heights of a plot over a fixed order of names, stated on the rows. */
  predicate CountsByName(r: seq<Option<nat>>, rows: seq<Row>, col: string, order: seq<string>) {
    && |r| == |order|
    && forall k | 0 <= k < |order| ::
         var n := Count(rows, Equals(col, Text(order[k])));
         r[k] == if n > 0 then Some(n) else None
  }

  /** Reindexing a tally gives, for every name, its count over the rows. */
  lemma ReindexCounts(tally: Tally, rows: seq<Row>, col: string, order: seq<string>)
    requires Tallies(tally, rows, col)
    ensures CountsByName(Reindex(tally, order), rows, col, order)
  {
    var r := Reindex(tally, order);
    forall k | 0 <= k < |order|
      ensures var n := Count(rows, Equals(col, Text(order[k])));
        r[k] == if n > 0 then Some(n) else None
    {
      var v := Text(order[k]);
      var p := Find(tally.values, v);
      if p == |tally.values| {
        AbsentCountsZero(tally, rows, col, v);
      }
    }
  }

  /** `day_plot`: accidents per weekday, Monday to Sunday; no plot for an empty table. */
  method DayCounts(t: Table) returns (r: seq<Option<nat>>)
    ensures Empty(t) ==> r == []
    ensures !Empty(t) ==> CountsByName(r, t.rows, DayColumn, DayNames)
  {
    if Empty(t) {
      return [];
    }
    var tally := ValueCounts(t.rows, DayColumn);
    r := Reindex(tally, DayNames);
    ReindexCounts(tally, t.rows, DayColumn, DayNames);
  }

  /** `month_plot`: accidents per month, January to December; no plot for an empty table. */
  method MonthCounts(t: Table) returns (r: seq<Option<nat>>)
    ensures Empty(t) ==> r == []
    ensures !Empty(t) ==> CountsByName(r, t.rows, MonthColumn, MonthNames)
  {
    if Empty(t) {
      return [];
    }
    var tally := ValueCounts(t.rows, MonthColumn);
    r := Reindex(tally, MonthNames);
    ReindexCounts(tally, t.rows, MonthColumn, MonthNames);
  }

  /** Every hour cell is null or a whole hour of the day, as loading makes it. */
  predicate HoursOfDay(t: Table) {
    forall i | 0 <= i < |t.rows| ::
      CellAt(t.rows[i], HourColumn).None? || exists h :: 0 <= h < 24 && CellAt(t.rows[i], HourColumn) == Some(Int(h))
  }

  /** `hours` and `counts` hold, ascending, the hours below `h` that some row
      has, each with its number of rows. */
  predicate HoursBelow(t: Table, hours: seq<int>, counts: seq<nat>, h: int) {
    && |counts| == |hours|
    && (forall k, l | 0 <= k < l < |hours| :: hours[k] < hours[l])
    && (forall k | 0 <= k < |hours| ::
          0 <= hours[k] < h && counts[k] == Count(t.rows, Equals(HourColumn, Int(hours[k]))) > 0)
    && (forall g | 0 <= g < h && Count(t.rows, Equals(HourColumn, Int(g))) > 0 :: g in hours)
  }

  /** Looking at hour `h` next extends the list by it exactly when some row has it. */
  lemma HoursStep(t: Table, hours: seq<int>, counts: seq<nat>, h: int)
    requires 0 <= h && HoursBelow(t, hours, counts, h)
    ensures var n := Count(t.rows, Equals(HourColumn, Int(h)));
      if n > 0 then HoursBelow(t, hours + [h], counts + [n], h + 1)
      else HoursBelow(t, hours, counts, h + 1)
  {
  }

  /** `hour_plot`: `value_counts().sort_index()` of the hour, that is the hours
      that occur, ascending, each with its number of rows. */
  method HourCounts(t: Table) returns (hours: seq<int>, counts: seq<nat>)
    requires HoursOfDay(t)
    ensures Empty(t) ==> hours == [] && counts == []
    ensures !Empty(t) ==> HoursBelow(t, hours, counts, 24)
    ensures !Empty(t) ==> forall i | 0 <= i < |t.rows| && CellAt(t.rows[i], HourColumn).Some? ::
      CellAt(t.rows[i], HourColumn).value.Int? && CellAt(t.rows[i], HourColumn).value.i in hours
  {
    hours, counts := [], [];
    if Empty(t) {
      return;
    }
    var h := 0;
    while h < 24
      invariant 0 <= h <= 24
      invariant HoursBelow(t, hours, counts, h)
    {
      var n := Count(t.rows, Equals(HourColumn, Int(h)));
      HoursStep(t, hours, counts, h);
      if n > 0 {
        hours, counts := hours + [h], counts + [n];
      }
      h := h + 1;
    }
    HoursListed(t, hours);
  }

  /** A list holding every hour that some row has lists every row's hour. */
  lemma HoursListed(t: Table, hours: seq<int>)
    requires HoursOfDay(t)
    requires forall g | 0 <= g < 24 && Count(t.rows, Equals(HourColumn, Int(g))) > 0 :: g in hours
    ensures forall i | 0 <= i < |t.rows| && CellAt(t.rows[i], HourColumn).Some? ::
      CellAt(t.rows[i], HourColumn).value.Int? && CellAt(t.rows[i], HourColumn).value.i in hours
  {
    forall i | 0 <= i < |t.rows| && CellAt(t.rows[i], HourColumn).Some?
      ensures CellAt(t.rows[i], HourColumn).value.Int? && CellAt(t.rows[i], HourColumn).value.i in hours
    {
      var g :| 0 <= g < 24 && CellAt(t.rows[i], HourColumn) == Some(Int(g));
      assert t.rows[i] in Where(t.rows, Equals(HourColumn, Int(g)));
    }
  }
}

=== FILE: optimize.dfy ===
/** optimize_data.py: rewrite each listed file with only the columns the
    dashboard and the training script need, skipping files that do not exist and
    reporting, without stopping, files that cannot be read. */
module Optimize {
  import opened Tables

  const CoreColumns: seq<string> := ["Severity", "Start_Time"]

  /** Used for the map. */
  const LocationColumns: seq<string> := ["Start_Lat", "Start_Lng", "City"]

  /** Used for the filters and the prediction. */
  const WeatherColumns: seq<string> := ["Weather_Condition", "Temperature(F)", "Humidity(%)"]

  /** The points of interest near an accident. */
  const PoiColumns: seq<string> := [
    "Junction", "Crossing", "Traffic_Signal", "Stop",
    "Station", "Amenity", "Bump", "Give_Way",
    "No_Exit", "Roundabout"
  ]

  /** The wish-list, in the order the script declares it. */
  const ColsToKeep: seq<string> := CoreColumns + LocationColumns + WeatherColumns + PoiColumns

  const FilesToOptimize: seq<string> := ["us_accidents_ca_only.csv", "us_accidents_ca_balanced.csv"]

  lemma PoiColumnsDistinct()
    ensures Distinct(PoiColumns)
  {
  }

  lemma ColsToKeepDistinct()
    ensures Distinct(ColsToKeep) && |ColsToKeep| == 18
  {
    PoiColumnsDistinct();
    DistinctAppend(CoreColumns, LocationColumns);
    DistinctAppend(CoreColumns + LocationColumns, WeatherColumns);
    DistinctAppend(CoreColumns + LocationColumns + WeatherColumns, PoiColumns);
  }

  /** The wish-list narrowed to the columns the file has, in wish-list order. */
  function FinalColumns(available: seq<string>): (r: seq<string>)
    ensures forall c :: c in r <==> c in ColsToKeep && c in available
    ensures IsSubsequence(r, ColsToKeep)
    ensures Distinct(r)
    ensures |r| <= |ColsToKeep| && |r| <= |available|
  {
    ColsToKeepDistinct();
    var r := Keep(ColsToKeep, available);
    DistinctWithin(r, available);
    r
  }

  /** Reading with `usecols`: the file's own columns that are in `final_cols`, in
      the order of the file, with every row and its values in those columns. An
      empty `usecols` reads a frame with neither columns nor rows. */
  function OptimizeTable(t: Table): (r: Table)
    ensures forall c :: c in r.header <==> c in t.header && c in ColsToKeep
    ensures IsSubsequence(r.header, t.header)
    ensures FinalColumns(t.header) == [] ==> r == Table([], [])
    ensures FinalColumns(t.header) != [] ==> |r.rows| == |t.rows|
    ensures forall i, c | 0 <= i < |r.rows| && c in r.header :: i < |t.rows| && CellAt(r.rows[i], c) == CellAt(t.rows[i], c)
    ensures forall i, c | 0 <= i < |r.rows| && c !in r.header :: c !in r.rows[i]
    ensures WellFormed(t) ==> WellFormed(r)
  {
    var final := FinalColumns(t.header);
    var kept := Keep(t.header, final);
    assert final != [] ==> final[0] in kept;
    assert kept != [] ==> kept[0] in final;
    if kept == [] then Table(kept, []) else Reshape(t, kept)
  }

  /** Projecting an already projected table changes nothing, and it reports the
      same kept columns. */
  lemma {:induction false} OptimizeIdempotent(t: Table)
    ensures FinalColumns(OptimizeTable(t).header) == FinalColumns(t.header)
    ensures OptimizeTable(OptimizeTable(t)) == OptimizeTable(t)
  {
    var once := OptimizeTable(t);
    if FinalColumns(t.header) == [] {
      return;
    }
    KeepAgree(ColsToKeep, once.header, t.header);
    var final := FinalColumns(t.header);
    assert once.header == Keep(t.header, final);
    KeepAll(once.header, final);
    assert Keep(once.header, FinalColumns(once.header)) == once.header;
    ReshapeTwice(t, once.header);
  }

  /** The files of the batch, by name; a name that is absent does not exist. */
  type Disk = map<string, FileContent>

  datatype FileOutcome =
    | Skipped                       // "File not found. Skipping."
    | Optimized(kept: seq<string>)  // overwritten with the kept columns
    | Failed                        // the read raised; the error is reported

  /** One file: a missing file is left alone, a file that cannot be read is
      reported and left alone, any other file is overwritten in place with its
      projection. */
  function OptimizeFile(disk: Disk, path: string): (r: (Disk, FileOutcome))
    ensures r.0.Keys == disk.Keys
    ensures forall p | p in disk && p != path :: r.0[p] == disk[p]
    ensures r.1 == Skipped <==> path !in disk
    ensures r.1 == Failed <==> path in disk && disk[path].Corrupt?
    ensures r.1.Skipped? || r.1.Failed? ==> r.0 == disk
    ensures r.1.Optimized? ==>
      && disk[path].Csv?
      && r.0[path] == Projected(disk[path])
      && r.1.kept == FinalColumns(disk[path].table.header)
  {
    if path !in disk then (disk, Skipped)
    else
      match disk[path]
      case Corrupt => (disk, Failed)
      case Csv(t) => (disk[path := Projected(Csv(t))], Optimized(FinalColumns(t.header)))
  }

  /** The batch loop: every listed file in order, each on the files as the
      earlier iterations left them. */
  function OptimizeAll(disk: Disk, paths: seq<string>): (r: (Disk, seq<FileOutcome>))
    ensures r.0.Keys == disk.Keys
    ensures |r.1| == |paths|
    ensures forall p | p in disk && p !in paths :: r.0[p] == disk[p]
  {
    if |paths| == 0 then (disk, [])
    else
      var (next, outcome) := OptimizeFile(disk, paths[0]);
      var (last, rest) := OptimizeAll(next, paths[1..]);
      (last, [outcome] + rest)
  }

  /** What the script does to one file of the original disk, however often it is listed. */
  function Expected(disk: Disk, path: string): FileOutcome {
    if path !in disk then Skipped
    else if disk[path].Corrupt? then Failed
    else Optimized(FinalColumns(disk[path].table.header))
  }

  /** What the file holds once it has been processed. A frame with no columns is
      written without even a header line, which a later read cannot parse. */
  function Projected(f: FileContent): (r: FileContent)
    ensures f.Corrupt? ==> r.Corrupt?
    ensures f.Csv? && FinalColumns(f.table.header) == [] ==> r.Corrupt?
    ensures f.Csv? && FinalColumns(f.table.header) != [] ==> r == Csv(OptimizeTable(f.table))
  {
    match f
    case Corrupt => Corrupt
    case Csv(t) => if FinalColumns(t.header) == [] then Corrupt else Csv(OptimizeTable(t))
  }

  /** The outcome of visiting a file again after a visit that reported `o`: only a
      rewrite that kept no column changes it, into a failed read. */
  function Again(o: FileOutcome): (r: FileOutcome)
    ensures r != Optimized([])
    ensures r != o <==> o == Optimized([])
  {
    if o == Optimized([]) then Failed else o
  }

  /** The batch reports, for every listed file, the outcome its original content
      decides the first time it is listed, and `Again` of that on every later
      listing: a failure never stops the files after it. */
  lemma {:induction false} BatchOutcomes(disk: Disk, paths: seq<string>)
    ensures forall i | 0 <= i < |paths| ::
      OptimizeAll(disk, paths).1[i] ==
        if paths[i] in paths[..i] then Again(Expected(disk, paths[i])) else Expected(disk, paths[i])
    decreases |paths|
  {
    if |paths| > 0 {
      var path := paths[0];
      var next := OptimizeFile(disk, path).0;
      BatchOutcomes(next, paths[1..]);
      var outcomes := OptimizeAll(disk, paths).1;
      assert outcomes == [OptimizeFile(disk, path).1] + OptimizeAll(next, paths[1..]).1;
      forall i | 1 <= i < |paths|
        ensures outcomes[i] ==
          if paths[i] in paths[..i] then Again(Expected(disk, paths[i])) else Expected(disk, paths[i])
      {
        assert paths[i] == paths[1..][i - 1];
        assert paths[..i] == [path] + paths[1..][..i - 1];
        OutcomeAfterVisit(disk, path, paths[i], paths[1..][..i - 1]);
      }
    }
  }

  /** One step of `BatchOutcomes`: what a file reports after `path` has been
      visited, told in terms of the disk before that visit. */
  lemma OutcomeAfterVisit(disk: Disk, path: string, q: string, before: seq<string>)
    ensures var next := OptimizeFile(disk, path).0;
      (if q in before then Again(Expected(next, q)) else Expected(next, q)) ==
      (if q in [path] + before then Again(Expected(disk, q)) else Expected(disk, q))
  {
    if path in disk {
      ExpectedStable(disk, path, q);
    }
  }

  /** The script's own run over its two files: each reports the outcome its
      original content decides, each readable one ends up projected, and no other
      file is touched. */
  lemma OptimizeScript(disk: Disk)
    ensures |OptimizeAll(disk, FilesToOptimize).1| == 2
    ensures OptimizeAll(disk, FilesToOptimize).1[0] == Expected(disk, "us_accidents_ca_only.csv")
    ensures OptimizeAll(disk, FilesToOptimize).1[1] == Expected(disk, "us_accidents_ca_balanced.csv")
    ensures forall p | p in disk ::
      OptimizeAll(disk, FilesToOptimize).0[p] == if p in FilesToOptimize then Projected(disk[p]) else disk[p]
  {
    assert |FilesToOptimize[0]| != |FilesToOptimize[1]|;
    assert FilesToOptimize[1] !in FilesToOptimize[..1];
    BatchOutcomes(disk, FilesToOptimize);
    BatchFiles(disk, FilesToOptimize);
  }

  /** After the batch, every listed readable file holds its projection and every
      other file is as it was. */
  lemma {:induction false} BatchFiles(disk: Disk, paths: seq<string>)
    ensures forall p | p in disk ::
      OptimizeAll(disk, paths).0[p] == if p in paths then Projected(disk[p]) else disk[p]
    decreases |paths|
  {
    if |paths| > 0 {
      var path := paths[0];
      var next := OptimizeFile(disk, path).0;
      BatchFiles(next, paths[1..]);
      var last := OptimizeAll(disk, paths).0;
      assert last == OptimizeAll(next, paths[1..]).0;
      if path in disk {
        assert next == disk[path := Projected(disk[path])];
        ProjectedTwice(disk[path]);
      }
      forall p | p in disk
        ensures last[p] == if p in paths then Projected(disk[p]) else disk[p]
      {
        assert p in paths <==> p == path || p in paths[1..];
      }
    }
  }

  /** A second projection of a processed file is the first. */
  lemma ProjectedTwice(f: FileContent)
    ensures Projected(Projected(f)) == Projected(f)
  {
    if f.Csv? && FinalColumns(f.table.header) != [] {
      OptimizeIdempotent(f.table);
    }
  }

  /** Processing a file leaves every other file's outcome alone and turns its own
      into `Again` of it: the same report, except that a rewrite that kept no
      column cannot be read back. */
  lemma ExpectedStable(disk: Disk, path: string, q: string)
    requires path in disk
    ensures q != path ==> Expected(disk[path := Projected(disk[path])], q) == Expected(disk, q)
    ensures q == path ==> Expected(disk[path := Projected(disk[path])], q) == Again(Expected(disk, q))
  {
    if q == path && disk[path].Csv? && FinalColumns(disk[path].table.header) != [] {
      OptimizeIdempotent(disk[path].table);
    }
  }
}

=== FILE: plan.dfy ===
/** A lazy query plan as the cleaning and region scripts build it: a linear chain
    of steps (drop columns, set columns from expressions, drop rows with nulls,
    filter rows), and the interpreter that runs the chain over a table when the
    plan is collected or sunk. Schema checks happen per step before any row is
    touched; a value-level failure anywhere fails the whole run. */
module Plan {
  import opened Tables
  import opened Clock

  /** A column expression, evaluated against one row. */
  datatype Expr =
    | ParseTime(col: string)                         // str.to_datetime(), strict
    | FillNull(col: string, fill: Value)             // fill_null(value)
    | HourOf(col: string)                            // dt.hour()
    | MonthOf(col: string)                           // dt.month()
    | WeekdayOf(col: string)                         // dt.weekday()
    | MinutesBetween(later: string, earlier: string) // (later - earlier).dt.total_minutes()

  datatype Assignment = Assignment(name: string, expr: Expr)

  datatype Step =
    | Drop(names: seq<string>)
    | WithColumns(assignments: seq<Assignment>)
    | DropNulls(subset: seq<string>)
    | Filter(test: RowTest)

  /** Whether dropping a column the table does not have is ignored or an error. */
  datatype DropPolicy = IgnoreAbsent | RejectAbsent

  /** What a run depends on besides the plan and the data: the timestamp text
      parser, the civil calendar, and the behaviour of `drop` on absent names. */
  datatype Env = Env(parse: string -> Option<int>, calendar: Calendar, policy: DropPolicy)

  datatype PlanError =
    | ColumnNotFound(name: string)
    | DuplicateOutput
    | ParseFailure(col: string, text: string)
    | TypeMismatch(col: string)

  /** The columns an expression reads. */
  function Inputs(e: Expr): seq<string> {
    match e
    case ParseTime(c) => [c]
    case FillNull(c, _) => [c]
    case HourOf(c) => [c]
    case MonthOf(c) => [c]
    case WeekdayOf(c) => [c]
    case MinutesBetween(a, b) => [a, b]
  }

  function InputsOf(assignments: seq<Assignment>): (r: seq<string>)
    ensures forall k, c | 0 <= k < |assignments| && c in Inputs(assignments[k].expr) :: c in r
  {
    if |assignments| == 0 then []
    else Inputs(assignments[0].expr) + InputsOf(assignments[1..])
  }

  function NamesOf(assignments: seq<Assignment>): (r: seq<string>)
    ensures |r| == |assignments|
    ensures forall k | 0 <= k < |assignments| :: r[k] == assignments[k].name
  {
    seq(|assignments|, k requires 0 <= k < |assignments| => assignments[k].name)
  }

  /** The first listed column missing from the header, if any. */
  function FirstAbsent(cols: seq<string>, header: seq<string>): (r: Option<string>)
    ensures r.None? <==> forall c | c in cols :: c in header
    ensures r.Some? ==> r.value in cols && r.value !in header
  {
    if |cols| == 0 then None
    else if cols[0] !in header then Some(cols[0])
    else FirstAbsent(cols[1..], header)
  }

  /** The timestamp in a cell: null stays null, any other non-timestamp is a type error. */
  function StampAt(row: Row, c: string): (r: Result<Option<int>, PlanError>)
    ensures r == Ok(None) <==> CellAt(row, c).None?
    ensures forall t :: r == Ok(Some(t)) <==> CellAt(row, c) == Some(Time(t))
  {
    match CellAt(row, c)
    case None => Ok(None)
    case Some(Time(t)) => Ok(Some(t))
    case Some(_) => Err(TypeMismatch(c))
  }

  function Eval(env: Env, e: Expr, row: Row): (r: Result<Cell, PlanError>)
    ensures e.ParseTime? && r.Ok? && r.value.Some? ==> r.value.value.Time?
    ensures e.ParseTime? && CellAt(row, e.col).Some? && CellAt(row, e.col).value.Text? ==>
      var s := CellAt(row, e.col).value.s;
      && (r.Ok? <==> env.parse(s).Some?)
      && (r.Ok? ==> r.value == Some(Time(env.parse(s).value)))
      && (r.Err? ==> r.error == ParseFailure(e.col, s))
    ensures e.ParseTime? && CellAt(row, e.col).Some? && !CellAt(row, e.col).value.Text? ==>
      r == Err(TypeMismatch(e.col))
    ensures e.FillNull? ==> r.Ok? && r.value.Some?
    ensures e.FillNull? && CellAt(row, e.col).Some? ==> r == Ok(CellAt(row, e.col))
    ensures !e.FillNull? && (forall c | c in Inputs(e) :: CellAt(row, c).None?) ==> r == Ok(None)
  {
    match e
    case ParseTime(c) =>
      (match CellAt(row, c)
       case None => Ok(None)
       case Some(Text(s)) =>
         (match env.parse(s)
          case Some(t) => Ok(Some(Time(t)))
          case None => Err(ParseFailure(c, s)))
       case Some(_) => Err(TypeMismatch(c)))
    case FillNull(c, v) =>
      if CellAt(row, c).None? then Ok(Some(v)) else Ok(CellAt(row, c))
    case HourOf(c) =>
      (match StampAt(row, c)
       case Err(x) => Err(x)
       case Ok(None) => Ok(None)
       case Ok(Some(t)) => Ok(Some(Int(HourOfDay(t)))))
    case MonthOf(c) =>
      (match StampAt(row, c)
       case Err(x) => Err(x)
       case Ok(None) => Ok(None)
       case Ok(Some(t)) => Ok(Some(Int(env.calendar.monthOf(t)))))
    case WeekdayOf(c) =>
      (match StampAt(row, c)
       case Err(x) => Err(x)
       case Ok(None) => Ok(None)
       case Ok(Some(t)) => Ok(Some(Int(Weekday(t)))))
    case MinutesBetween(a, b) =>
      (match (StampAt(row, a), StampAt(row, b))
       case (Err(x), _) => Err(x)
       case (_, Err(x)) => Err(x)
       case (Ok(Some(later)), Ok(Some(earlier))) => Ok(Some(Int(WholeMinutes(later - earlier))))
       case _ => Ok(None))
  }

  /** The new cells of one row: every assignment evaluated against the row as it
      was before the step, so one assignment never sees another's result. */
  function Updates(env: Env, assignments: seq<Assignment>, row: Row): (r: Result<Row, PlanError>)
    ensures r.Ok? ==> r.value.Keys == Names(NamesOf(assignments))
  {
    if |assignments| == 0 then Ok(map[])
    else
      var head := assignments[0];
      match Eval(env, head.expr, row)
      case Err(e) => Err(e)
      case Ok(c) =>
        match Updates(env, assignments[1..], row)
        case Err(e) => Err(e)
        case Ok(m) =>
          assert NamesOf(assignments) == [head.name] + NamesOf(assignments[1..]);
          Ok(m[head.name := c])
  }

  /** A row updates without error exactly when every assignment evaluates on it. */
  lemma {:induction false} UpdatesOk(env: Env, assignments: seq<Assignment>, row: Row)
    ensures Updates(env, assignments, row).Ok? <==>
      forall k | 0 <= k < |assignments| :: Eval(env, assignments[k].expr, row).Ok?
  {
    if |assignments| > 0 {
      UpdatesOk(env, assignments[1..], row);
      assert forall k | 1 <= k < |assignments| :: assignments[k] == assignments[1..][k - 1];
    }
  }

  /** With distinct names, the update holds each assignment's value under its name. */
  lemma {:induction false} UpdatesAt(env: Env, assignments: seq<Assignment>, row: Row, k: nat)
    requires Updates(env, assignments, row).Ok?
    requires Distinct(NamesOf(assignments))
    requires k < |assignments|
    ensures Eval(env, assignments[k].expr, row) == Ok(Updates(env, assignments, row).value[assignments[k].name])
  {
    var rest := Updates(env, assignments[1..], row);
    assert rest.Ok?;
    assert NamesOf(assignments) == [assignments[0].name] + NamesOf(assignments[1..]);
    if k > 0 {
      assert Distinct(NamesOf(assignments[1..])) by {
        assert forall j | 0 <= j < |assignments| - 1 :: NamesOf(assignments[1..])[j] == NamesOf(assignments)[j + 1];
      }
      UpdatesAt(env, assignments[1..], row, k - 1);
      assert assignments[1..][k - 1] == assignments[k];
      assert assignments[k].name != assignments[0].name by {
        assert NamesOf(assignments)[k] != NamesOf(assignments)[0];
      }
    }
  }

  /** Every row updated on its own; the first failing row fails the step. */
  function ApplyRows(env: Env, assignments: seq<Assignment>, rows: seq<Row>): (r: Result<seq<Row>, PlanError>)
    ensures r.Ok? ==> |r.value| == |rows|
  {
    if |rows| == 0 then Ok([])
    else
      match Updates(env, assignments, rows[0])
      case Err(e) => Err(e)
      case Ok(u) =>
        match ApplyRows(env, assignments, rows[1..])
        case Err(e) => Err(e)
        case Ok(rest) => Ok([rows[0] + u] + rest)
  }

  /** The rows update without error exactly when each row does on its own. */
  lemma {:induction false} ApplyRowsOk(env: Env, assignments: seq<Assignment>, rows: seq<Row>)
    ensures ApplyRows(env, assignments, rows).Ok? <==>
      forall i | 0 <= i < |rows| :: Updates(env, assignments, rows[i]).Ok?
  {
    if |rows| > 0 {
      ApplyRowsOk(env, assignments, rows[1..]);
      assert forall i | 1 <= i < |rows| :: rows[i] == rows[1..][i - 1];
    }
  }

  /** Output row `i` is input row `i` with its own updates laid over it. */
  lemma {:induction false} ApplyRowsAt(env: Env, assignments: seq<Assignment>, rows: seq<Row>, i: nat)
    requires ApplyRows(env, assignments, rows).Ok?
    requires i < |rows|
    ensures Updates(env, assignments, rows[i]).Ok?
    ensures ApplyRows(env, assignments, rows).value[i] == rows[i] + Updates(env, assignments, rows[i]).value
  {
    var head := Updates(env, assignments, rows[0]);
    var rest := ApplyRows(env, assignments, rows[1..]);
    assert head.Ok? && rest.Ok?;
    assert ApplyRows(env, assignments, rows).value == [rows[0] + head.value] + rest.value;
    if i > 0 {
      ApplyRowsAt(env, assignments, rows[1..], i - 1);
      assert rows[1..][i - 1] == rows[i];
    }
  }

  /** A row filter whose test reads only columns the table has. */
  function FilterRows(t: Table, test: RowTest): (r: Result<Table, PlanError>)
    ensures r.Ok? <==> forall c | c in Columns(test) :: c in t.header
    ensures r.Ok? ==> r.value == Table(t.header, Where(t.rows, test))
    ensures r.Ok? && WellFormed(t) ==> WellFormed(r.value)
  {
    match FirstAbsent(Columns(test), t.header)
    case Some(c) => Err(ColumnNotFound(c))
    case None =>
      WhereWellFormed(t, test);
      Ok(Table(t.header, Where(t.rows, test)))
  }

  /** `drop`: the header without the named columns, each row restricted to it. */
  function DropColumns(env: Env, t: Table, names: seq<string>): (r: Result<Table, PlanError>)
    ensures r.Ok? <==> env.policy.IgnoreAbsent? || forall c | c in names :: c in t.header
    ensures r.Ok? ==> r.value == Reshape(t, Omit(t.header, names))
    ensures r.Ok? && WellFormed(t) ==> WellFormed(r.value)
  {
    var absent := FirstAbsent(names, t.header);
    if env.policy.RejectAbsent? && absent.Some? then Err(ColumnNotFound(absent.value))
    else Ok(Reshape(t, Omit(t.header, names)))
  }

  /** `with_columns`: every assignment read from present columns, output names
      distinct, and every row's expressions evaluated without error. */
  function SetColumns(env: Env, t: Table, assignments: seq<Assignment>): (r: Result<Table, PlanError>)
    ensures r.Ok? <==>
      && (forall c | c in InputsOf(assignments) :: c in t.header)
      && Distinct(NamesOf(assignments))
      && ApplyRows(env, assignments, t.rows).Ok?
    ensures r.Ok? ==> r.value == Table(AppendNames(t.header, NamesOf(assignments)), ApplyRows(env, assignments, t.rows).value)
    ensures r.Ok? && WellFormed(t) ==> WellFormed(r.value)
  {
    var names := NamesOf(assignments);
    var absent := FirstAbsent(InputsOf(assignments), t.header);
    if absent.Some? then Err(ColumnNotFound(absent.value))
    else if !Distinct(names) then Err(DuplicateOutput)
    else
      match ApplyRows(env, assignments, t.rows)
      case Err(e) => Err(e)
      case Ok(rows) =>
        var r := Table(AppendNames(t.header, names), rows);
        assert WellFormed(t) ==> WellFormed(r) by {
          if WellFormed(t) {
            forall i | 0 <= i < |rows|
              ensures rows[i].Keys == Names(r.header)
            {
              ApplyRowsAt(env, assignments, t.rows, i);
            }
          }
        }
        Ok(r)
  }

  /** One step. Row counts never grow; they stay put except through the row filters. */
  function RunStep(env: Env, step: Step, t: Table): (r: Result<Table, PlanError>)
    ensures r.Ok? && WellFormed(t) ==> WellFormed(r.value)
    ensures r.Ok? ==> |r.value.rows| <= |t.rows|
    ensures r.Ok? && (step.Drop? || step.WithColumns?) ==> |r.value.rows| == |t.rows|
    ensures r.Ok? && (step.DropNulls? || step.Filter?) ==> r.value.header == t.header
  {
    match step
    case Drop(names) => DropColumns(env, t, names)
    case WithColumns(assignments) => SetColumns(env, t, assignments)
    case DropNulls(subset) => FilterRows(t, NoNulls(subset))
    case Filter(test) => FilterRows(t, test)
  }

  /** The whole chain, step by step in declared order; the first failure ends the run. */
  function Run(env: Env, plan: seq<Step>, t: Table): (r: Result<Table, PlanError>)
    ensures r.Ok? && WellFormed(t) ==> WellFormed(r.value)
    ensures r.Ok? ==> |r.value.rows| <= |t.rows|
  {
    if |plan| == 0 then Ok(t)
    else
      match RunStep(env, plan[0], t)
      case Err(e) => Err(e)
      case Ok(next) => Run(env, plan[1..], next)
  }

  /** Dropping columns removes exactly the named columns the table has, keeps the
      rest in order with their cells, and leaves the rows where they were. Only the
      policy decides whether naming an absent column is an error. */
  lemma DropShape(env: Env, t: Table, names: seq<string>)
    ensures var r := DropColumns(env, t, names);
      && (r.Ok? <==> env.policy.IgnoreAbsent? || forall c | c in names :: c in t.header)
      && (r.Ok? ==>
            && Names(r.value.header) == Names(t.header) - Names(names)
            && IsSubsequence(r.value.header, t.header)
            && |r.value.rows| == |t.rows|
            && forall i, c | 0 <= i < |t.rows| && c in r.value.header ::
                 CellAt(r.value.rows[i], c) == CellAt(t.rows[i], c))
  {
  }

  /** One updated row holds, under each assigned name, what the assignment
      evaluates to on the row before the update. */
  lemma UpdatedCell(env: Env, assignments: seq<Assignment>, row: Row, k: nat)
    requires Updates(env, assignments, row).Ok?
    requires Distinct(NamesOf(assignments))
    requires k < |assignments|
    ensures Eval(env, assignments[k].expr, row) ==
      Ok(CellAt(row + Updates(env, assignments, row).value, assignments[k].name))
  {
    UpdatesAt(env, assignments, row, k);
    assert NamesOf(assignments)[k] == assignments[k].name;
  }

  /** A column no assignment names keeps its cell. */
  lemma UntouchedCell(env: Env, assignments: seq<Assignment>, row: Row, c: string)
    requires Updates(env, assignments, row).Ok?
    requires c !in NamesOf(assignments)
    ensures CellAt(row + Updates(env, assignments, row).value, c) == CellAt(row, c)
  {
    var u := Updates(env, assignments, row).value;
    assert c !in u.Keys;
    if c in row {
      assert (row + u)[c] == row[c];
    } else {
      assert c !in row + u;
    }
  }

  /** On a table without rows, setting columns can fail only on the header: an
      absent input or a repeated output name. */
  lemma SetColumnsNoRows(env: Env, t: Table, assignments: seq<Assignment>)
    requires |t.rows| == 0
    requires forall c | c in InputsOf(assignments) :: c in t.header
    requires Distinct(NamesOf(assignments))
    ensures SetColumns(env, t, assignments) == Ok(Table(AppendNames(t.header, NamesOf(assignments)), []))
  {
    assert ApplyRows(env, assignments, t.rows) == Ok([]);
  }

  /** Setting columns keeps the existing columns where they are and appends the
      new names after them in the order written; the row count is unchanged. */
  lemma SetColumnsShape(env: Env, t: Table, assignments: seq<Assignment>, t': Table)
    requires SetColumns(env, t, assignments) == Ok(t')
    ensures Distinct(NamesOf(assignments))
    ensures forall c | c in InputsOf(assignments) :: c in t.header
    ensures t'.header == t.header + Omit(NamesOf(assignments), t.header)
    ensures |t'.rows| == |t.rows|
  {
  }

  /** Setting columns gives row `i`, under the name of assignment `k`, what that
      assignment evaluates to on the same input row. */
  lemma SetColumnsCellAt(env: Env, t: Table, assignments: seq<Assignment>, t': Table, i: nat, k: nat)
    requires SetColumns(env, t, assignments) == Ok(t')
    requires i < |t.rows| && k < |assignments|
    ensures Eval(env, assignments[k].expr, t.rows[i]) == Ok(CellAt(t'.rows[i], assignments[k].name))
  {
    ApplyRowsAt(env, assignments, t.rows, i);
    UpdatedCell(env, assignments, t.rows[i], k);
  }

  /** Setting columns leaves every cell of a column no assignment names as it was. */
  lemma SetColumnsKeptAt(env: Env, t: Table, assignments: seq<Assignment>, t': Table, i: nat, c: string)
    requires SetColumns(env, t, assignments) == Ok(t')
    requires i < |t.rows| && c !in NamesOf(assignments)
    ensures CellAt(t'.rows[i], c) == CellAt(t.rows[i], c)
  {
    ApplyRowsAt(env, assignments, t.rows, i);
    UntouchedCell(env, assignments, t.rows[i], c);
  }

  /** Setting columns gives each row, under each assigned name, what the
      assignment evaluates to on that same input row, and leaves every other
      cell as it was. */
  lemma SetColumnsCells(env: Env, t: Table, assignments: seq<Assignment>, t': Table)
    requires SetColumns(env, t, assignments) == Ok(t')
    ensures forall i, k | 0 <= i < |t.rows| && 0 <= k < |assignments| ::
      Eval(env, assignments[k].expr, t.rows[i]) == Ok(CellAt(t'.rows[i], assignments[k].name))
    ensures forall i, c | 0 <= i < |t.rows| && c !in NamesOf(assignments) ::
      CellAt(t'.rows[i], c) == CellAt(t.rows[i], c)
  {
    forall i, k | 0 <= i < |t.rows| && 0 <= k < |assignments|
      ensures Eval(env, assignments[k].expr, t.rows[i]) == Ok(CellAt(t'.rows[i], assignments[k].name))
    {
      SetColumnsCellAt(env, t, assignments, t', i, k);
    }
    forall i, c | 0 <= i < |t.rows| && c !in NamesOf(assignments)
      ensures CellAt(t'.rows[i], c) == CellAt(t.rows[i], c)
    {
      SetColumnsKeptAt(env, t, assignments, t', i, c);
    }
  }

  /** A column survives `drop` exactly when the table had it and it was not named. */
  lemma DroppedHeader(env: Env, t: Table, names: seq<string>, t': Table, c: string)
    requires DropColumns(env, t, names) == Ok(t')
    ensures c in t'.header <==> c in t.header && c !in names
  {
  }

  /** A surviving column keeps its cells. */
  lemma DroppedCellAt(env: Env, t: Table, names: seq<string>, t': Table, i: nat, c: string)
    requires DropColumns(env, t, names) == Ok(t')
    requires i < |t.rows| && c in t'.header
    ensures CellAt(t'.rows[i], c) == CellAt(t.rows[i], c)
  {
  }

  /** A column the step does not assign was already in the input. */
  lemma SetColumnsKeepsHeader(env: Env, t: Table, assignments: seq<Assignment>, t': Table, c: string)
    requires SetColumns(env, t, assignments) == Ok(t')
    requires c in t'.header && c !in NamesOf(assignments)
    ensures c in t.header
  {
    SetColumnsShape(env, t, assignments, t');
  }

  /** A successful null filter reads only present columns, keeps the header, and
      keeps exactly the rows with no null in the subset. */
  lemma DropNullsShape(t: Table, subset: seq<string>, t': Table)
    requires FilterRows(t, NoNulls(subset)) == Ok(t')
    ensures forall c | c in subset :: c in t.header
    ensures t' == Table(t.header, Where(t.rows, NoNulls(subset)))
  {
  }

  /** A plan of one step runs that step. */
  lemma RunSingle(env: Env, s: Step, t: Table)
    ensures Run(env, [s], t) == RunStep(env, s, t)
  {
    assert [s][1..] == [];
  }

  /** A plan of two steps runs the second on the first's output. */
  lemma RunPair(env: Env, s1: Step, s2: Step, t: Table)
    ensures Run(env, [s1, s2], t) ==
      match RunStep(env, s1, t)
      case Err(e) => Err(e)
      case Ok(next) => RunStep(env, s2, next)
  {
    assert [s1, s2][1..] == [s2];
    match RunStep(env, s1, t)
    case Err(_) =>
    case Ok(next) => RunSingle(env, s2, next);
  }

  /** Two null filters in a row keep exactly the rows with no null in either
      subset: the same as one filter over both subsets, in either order. */
  lemma NullFiltersCompose(env: Env, t: Table, a: seq<string>, b: seq<string>)
    ensures var two := Run(env, [DropNulls(a), DropNulls(b)], t);
      var one := Run(env, [DropNulls(a + b)], t);
      var swapped := Run(env, [DropNulls(b), DropNulls(a)], t);
      && (two.Ok? <==> one.Ok?)
      && (swapped.Ok? <==> one.Ok?)
      && (one.Ok? ==> two == one && swapped == one && one.value.rows == Where(t.rows, NoNulls(a + b)))
  {
    RunSingle(env, DropNulls(a + b), t);
    RunPair(env, DropNulls(a), DropNulls(b), t);
    RunPair(env, DropNulls(b), DropNulls(a), t);
    NullFilterPair(t, a, b);
    NullFilterPair(t, b, a);
    WhereAgree(t.rows, NoNulls(b + a), NoNulls(a + b));
  }

  /** The row-filter core of `NullFiltersCompose`, one order at a time. */
  lemma NullFilterPair(t: Table, a: seq<string>, b: seq<string>)
    ensures var first := FilterRows(t, NoNulls(a));
      var two := if first.Ok? then FilterRows(first.value, NoNulls(b)) else first;
      var one := FilterRows(t, NoNulls(a + b));
      && (two.Ok? <==> one.Ok?)
      && (one.Ok? ==> two == one)
  {
    WhereTwice(t.rows, NoNulls(a), NoNulls(b));
    WhereAgree(t.rows, Both(NoNulls(a), NoNulls(b)), NoNulls(a + b));
  }

  /** Filling nulls of one column touches nothing else: the header, the row count,
      every other column and every non-null cell of that column stay as they
      were, and each null of that column becomes the fill value. */
  lemma FillNullOnlyNulls(env: Env, t: Table, c: string, v: Value)
    ensures var r := SetColumns(env, t, [Assignment(c, FillNull(c, v))]);
      && (r.Ok? <==> c in t.header)
      && (r.Ok? ==>
            && r.value.header == t.header
            && |r.value.rows| == |t.rows|
            && forall i | 0 <= i < |t.rows| ::
                 && (forall k | k != c :: CellAt(r.value.rows[i], k) == CellAt(t.rows[i], k))
                 && (CellAt(t.rows[i], c).Some? ==> CellAt(r.value.rows[i], c) == CellAt(t.rows[i], c))
                 && (CellAt(t.rows[i], c).None? ==> CellAt(r.value.rows[i], c) == Some(v)))
  {
    var assignments := [Assignment(c, FillNull(c, v))];
    var r := SetColumns(env, t, assignments);
    assert NamesOf(assignments) == [c];
    assert InputsOf(assignments) == [c] by {
      assert assignments[1..] == [];
    }
    ApplyRowsOk(env, assignments, t.rows);
    if c in t.header {
      forall i | 0 <= i < |t.rows|
        ensures Updates(env, assignments, t.rows[i]).Ok?
      {
        UpdatesOk(env, assignments, t.rows[i]);
        assert Eval(env, assignments[0].expr, t.rows[i]).Ok?;
      }
    }
    if r.Ok? {
      assert Omit([c], t.header) == [] by {
        assert [c][1..] == [];
      }
      forall i | 0 <= i < |t.rows|
        ensures CellAt(r.value.rows[i], c) == (if CellAt(t.rows[i], c).None? then Some(v) else CellAt(t.rows[i], c))
        ensures forall k | k != c :: CellAt(r.value.rows[i], k) == CellAt(t.rows[i], k)
      {
        SetColumnsCellAt(env, t, assignments, r.value, i, 0);
        forall k | k != c
          ensures CellAt(r.value.rows[i], k) == CellAt(t.rows[i], k)
        {
          SetColumnsKeptAt(env, t, assignments, r.value, i, k);
        }
      }
    }
  }
}

=== FILE: region.dfy ===
/** The active part of preprocess.py: keep the rows of one state, count them and
    all rows, report the state's share, then sink the kept rows. The share is a
    plain division by the total, so an input without rows fails before the sink. */
module Region {
  import opened Tables
  import opened Plan

  const StateColumn: string := "State"
  const TargetState: Value := Text("CA")

  /** `State == "CA"`: a null state compares as null and the row is dropped. */
  const InState: RowTest := Equals(StateColumn, TargetState)

  datatype RegionError =
    | SourceFailed            // the input cannot be scanned
    | PlanFailed(error: PlanError)
    | ZeroDivision            // the share of an input without rows

  /** What the script leaves behind: the saved table with the counts and share it
      reported, or the error it reported instead of saving anything. */
  datatype RegionOutcome =
    | Saved(output: Table, usRows: nat, caRows: nat, percent: real)
    | Failed(cause: RegionError)

  /** The share of `part` in `whole`, in percent; undefined for an empty whole. */
  function Percent(part: nat, whole: nat): (p: real)
    requires whole > 0
    ensures part <= whole ==> 0.0 <= p <= 100.0
    ensures part == whole ==> p == 100.0
    ensures part == 0 ==> p == 0.0
  {
    ShareBound(part, whole);
    (part as real / whole as real) * 100.0
  }

  lemma ShareBound(part: nat, whole: nat)
    requires whole > 0
    ensures part <= whole ==> part as real / whole as real <= 1.0
    ensures 0.0 <= part as real / whole as real
  {
    if part <= whole {
      assert part as real <= whole as real;
    }
  }

  /** The script as written: the state count (which needs the column), the total,
      the share, and only then the sink. */
  function RegionRun(source: Option<FileContent>): (r: RegionOutcome)
    ensures source.None? || source == Some(Corrupt) ==> r == Failed(SourceFailed)
    ensures source.Some? && source.value.Csv? && StateColumn !in source.value.table.header ==>
      r == Failed(PlanFailed(ColumnNotFound(StateColumn)))
    ensures (source.Some? && source.value.Csv? && StateColumn in source.value.table.header
             && |source.value.table.rows| == 0) ==> r == Failed(ZeroDivision)
    ensures r.Saved? <==>
      source.Some? && source.value.Csv? && StateColumn in source.value.table.header
      && |source.value.table.rows| > 0
    ensures r.Saved? ==> r.caRows <= r.usRows && 0.0 <= r.percent <= 100.0
  {
    match source
    case None => Failed(SourceFailed)
    case Some(Corrupt) => Failed(SourceFailed)
    case Some(Csv(t)) =>
      match FilterRows(t, InState)
      case Err(e) => Failed(PlanFailed(e))
      case Ok(ca) =>
        var caRows := |ca.rows|;
        var usRows := |t.rows|;
        if usRows == 0 then Failed(ZeroDivision)
        else Saved(ca, usRows, caRows, Percent(caRows, usRows))
  }

  /** The script with the share taken as 0 for an input without rows, so every
      readable input with a state column is filtered and saved. */
  function RegionRunGuarded(source: Option<FileContent>): (r: RegionOutcome)
    ensures source.None? || source == Some(Corrupt) ==> r == Failed(SourceFailed)
    ensures source.Some? && source.value.Csv? && StateColumn !in source.value.table.header ==>
      r == Failed(PlanFailed(ColumnNotFound(StateColumn)))
    ensures r.Saved? <==>
      source.Some? && source.value.Csv? && StateColumn in source.value.table.header
    ensures r.Saved? ==>
      && r.usRows == |source.value.table.rows|
      && r.caRows == |r.output.rows| <= r.usRows
      && 0.0 <= r.percent <= 100.0
      && (r.usRows == 0 ==> r.percent == 0.0)
  {
    match source
    case None => Failed(SourceFailed)
    case Some(Corrupt) => Failed(SourceFailed)
    case Some(Csv(t)) =>
      match FilterRows(t, InState)
      case Err(e) => Failed(PlanFailed(e))
      case Ok(ca) =>
        var caRows := |ca.rows|;
        var usRows := |t.rows|;
        Saved(ca, usRows, caRows, if usRows == 0 then 0.0 else Percent(caRows, usRows))
  }

  /** Wherever the script as written saves, the guarded one saves the same table
      with the same counts and share. */
  lemma GuardAgrees(source: Option<FileContent>)
    requires RegionRun(source).Saved?
    ensures RegionRunGuarded(source) == RegionRun(source)
  {
  }

  /** An input that has the state column and no rows ends in the division error
      and nothing is saved, while the guarded script saves an empty table with
      share 0. */
  lemma EmptyInputFails(header: seq<string>)
    requires StateColumn in header
    ensures RegionRun(Some(Csv(Table(header, [])))) == Failed(ZeroDivision)
    ensures RegionRunGuarded(Some(Csv(Table(header, [])))) == Saved(Table(header, []), 0, 0, 0.0)
  {
  }

  /** The saved table has the input's header, and its rows are exactly the input
      rows whose state is "CA", in input order. */
  lemma SavedRowsAreInState(t: Table)
    requires RegionRunGuarded(Some(Csv(t))).Saved?
    ensures var out := RegionRunGuarded(Some(Csv(t))).output;
      && out.header == t.header
      && IsSubsequence(out.rows, t.rows)
      && (forall row | row in out.rows :: CellAt(row, StateColumn) == Some(TargetState))
      && (forall row | row in t.rows && CellAt(row, StateColumn) == Some(TargetState) :: row in out.rows)
      && (WellFormed(t) ==> WellFormed(out))
  {
    var out := RegionRunGuarded(Some(Csv(t))).output;
    assert out == Table(t.header, Where(t.rows, InState));
    assert forall row :: Holds(InState, row) <==> CellAt(row, StateColumn) == Some(TargetState);
  }

  /** Filtering the saved table again keeps every row: running the script on its
      own output reports the same table, and a share of 100 percent. */
  lemma {:induction false} RegionIdempotent(t: Table)
    requires RegionRunGuarded(Some(Csv(t))).Saved?
    ensures var first := RegionRunGuarded(Some(Csv(t)));
      var again := RegionRunGuarded(Some(Csv(first.output)));
      && again.Saved?
      && again.output == first.output
      && (first.caRows > 0 ==> again.percent == 100.0)
  {
    WhereTwice(t.rows, InState, InState);
    WhereAgree(t.rows, Both(InState, InState), InState);
  }
}

=== FILE: tables.dfy ===
/** The in-memory table every stage of the pipeline reads and writes: an ordered
    header of unique column names and a sequence of rows, each row mapping the
    header's names to an optional (nullable) value. Row identity is position only. */
module Tables {

  datatype Option<+T> = None | Some(value: T)

  datatype Result<+T, +E> = Ok(value: T) | Err(error: E)

  /** A cell value once a delimited file has been read. Floating-point columns are
      carried as exact reals; timestamps as whole seconds since the epoch. */
  datatype Value =
    | Text(s: string)
    | Int(i: int)
    | Real(x: real)
    | Flag(b: bool)
    | Time(t: int)

  /** `None` is a null entry (an empty field in the file). */
  type Cell = Option<Value>

  type Row = map<string, Cell>

  datatype Table = Table(header: seq<string>, rows: seq<Row>)

  /** The accident's start time, the column every stage relies on. */
  const StartTime: string := "Start_Time"

  /** What reading a file yields: a parsed table, or a read that raises. */
  datatype FileContent = Csv(table: Table) | Corrupt

  predicate Distinct<T(==)>(s: seq<T>) {
    forall i, j | 0 <= i < j < |s| :: s[i] != s[j]
  }

  function Names(header: seq<string>): set<string> {
    set c | c in header
  }

  /** Unique column names, and every row defines exactly the header's names. */
  predicate WellFormed(t: Table) {
    && Distinct(t.header)
    && forall i | 0 <= i < |t.rows| :: t.rows[i].Keys == Names(t.header)
  }

  /** The emptiness test of a data frame: no rows or no columns. */
  predicate Empty(t: Table) {
    |t.rows| == 0 || |t.header| == 0
  }

  function CellAt(row: Row, c: string): Cell {
    if c in row then row[c] else None
  }

  /** `a` is `b` with some elements removed, order kept. */
  predicate IsSubsequence<T(==)>(a: seq<T>, b: seq<T>)
    decreases |b|
  {
    if |b| == 0 then |a| == 0
    else IsSubsequence(a, b[1..]) || (|a| > 0 && a[0] == b[0] && IsSubsequence(a[1..], b[1..]))
  }

  /** The elements of `s` that occur in `allowed`, in the order of `s`. */
  function Keep(s: seq<string>, allowed: seq<string>): (r: seq<string>)
    ensures forall c :: c in r <==> c in s && c in allowed
    ensures IsSubsequence(r, s)
    ensures Distinct(s) ==> Distinct(r)
    ensures |r| <= |s|
  {
    if |s| == 0 then []
    else if s[0] in allowed then [s[0]] + Keep(s[1..], allowed)
    else Keep(s[1..], allowed)
  }

  /** The elements of `s` that do not occur in `removed`, in the order of `s`. */
  function Omit(s: seq<string>, removed: seq<string>): (r: seq<string>)
    ensures forall c :: c in r <==> c in s && c !in removed
    ensures IsSubsequence(r, s)
    ensures Distinct(s) ==> Distinct(r)
    ensures |r| <= |s|
  {
    if |s| == 0 then []
    else if s[0] !in removed then [s[0]] + Omit(s[1..], removed)
    else Omit(s[1..], removed)
  }

  /** Removing every name of the list leaves nothing. */
  lemma {:induction false} OmitAll(s: seq<string>, removed: seq<string>)
    requires forall c | c in s :: c in removed
    ensures Omit(s, removed) == []
  {
    if |s| > 0 {
      OmitAll(s[1..], removed);
    }
  }

  /** Removing names none of which occur leaves the list as it was. */
  lemma {:induction false} OmitNone(s: seq<string>, removed: seq<string>)
    requires forall c | c in s :: c !in removed
    ensures Omit(s, removed) == s
  {
    if |s| > 0 {
      OmitNone(s[1..], removed);
    }
  }

  /** Two duplicate-free lists with no element in common concatenate to one. */
  lemma DistinctAppend(a: seq<string>, b: seq<string>)
    requires Distinct(a) && Distinct(b)
    requires forall c | c in a :: c !in b
    ensures Distinct(a + b)
  {
    forall i, j | 0 <= i < j < |a + b|
      ensures (a + b)[i] != (a + b)[j]
    {
      if j >= |a| {
        assert (a + b)[j] == b[j - |a|];
        if i < |a| {
          assert (a + b)[i] in a;
        }
      }
    }
  }

  /** Filtering by two lists that agree on the elements of `s` gives the same result. */
  lemma {:induction false} KeepAgree(s: seq<string>, a: seq<string>, b: seq<string>)
    requires forall c :: c in s ==> (c in a <==> c in b)
    ensures Keep(s, a) == Keep(s, b)
  {
    if |s| > 0 {
      KeepAgree(s[1..], a, b);
    }
  }

  /** Keeping every element is the identity. */
  lemma KeepAll(s: seq<string>, allowed: seq<string>)
    requires forall c :: c in s ==> c in allowed
    ensures Keep(s, allowed) == s
  {
    KeepAgree(s, allowed, s);
    KeepSelf(s);
  }

  lemma {:induction false} KeepSelf(s: seq<string>)
    ensures Keep(s, s) == s
  {
    if |s| > 0 {
      KeepAgree(s[1..], s, s[1..]);
      assert forall c :: c in s[1..] ==> (c in s <==> c in s[1..]);
      KeepSelf(s[1..]);
    }
  }

  lemma {:induction false} DistinctNames(s: seq<string>)
    requires Distinct(s)
    ensures |Names(s)| == |s|
  {
    if |s| > 0 {
      DistinctNames(s[1..]);
      assert Names(s) == {s[0]} + Names(s[1..]);
      assert s[0] !in Names(s[1..]);
    }
  }

  lemma {:induction false} NamesBound(s: seq<string>)
    ensures |Names(s)| <= |s|
  {
    if |s| > 0 {
      NamesBound(s[1..]);
      assert Names(s) == {s[0]} + Names(s[1..]);
    }
  }

  /** A duplicate-free list drawn from `pool` is no longer than `pool`. */
  lemma DistinctWithin(s: seq<string>, pool: seq<string>)
    requires Distinct(s)
    requires forall c :: c in s ==> c in pool
    ensures |s| <= |pool|
  {
    DistinctNames(s);
    NamesBound(pool);
    var a, b := Names(s), Names(pool);
    assert a <= b;
    assert b == a + (b - a);
  }

  /** The header after new column names are added: the existing names in place,
      then the new ones not already present, in the order given. */
  function AppendNames(header: seq<string>, names: seq<string>): (r: seq<string>)
    ensures Names(r) == Names(header) + Names(names)
    ensures Distinct(header) && Distinct(names) ==> Distinct(r)
    ensures |header| <= |r| && r[..|header|] == header
    ensures r[|header|..] == Omit(names, header)
  {
    var added := Omit(names, header);
    assert forall i, j | 0 <= i < |header| <= j < |header + added| :: (header + added)[i] != (header + added)[j] by {
      forall i, j | 0 <= i < |header| <= j < |header + added|
        ensures (header + added)[i] != (header + added)[j]
      {
        assert (header + added)[j] == added[j - |header|];
        assert (header + added)[j] in added;
      }
    }
    header + added
  }

  /** The row limited to the names listed. */
  function Restrict(row: Row, cols: seq<string>): (r: Row)
    ensures r.Keys == row.Keys * Names(cols)
    ensures forall c :: c in r ==> r[c] == row[c]
  {
    map c | c in row && c in cols :: row[c]
  }

  /** The table limited to `header`, which lists columns the table has. */
  function Reshape(t: Table, header: seq<string>): (r: Table)
    requires Names(header) <= Names(t.header)
    ensures r.header == header
    ensures |r.rows| == |t.rows|
    ensures forall i, c | 0 <= i < |t.rows| && c in header :: CellAt(r.rows[i], c) == CellAt(t.rows[i], c)
    ensures forall i, c | 0 <= i < |t.rows| && c !in header :: c !in r.rows[i]
    ensures WellFormed(t) && Distinct(header) ==> WellFormed(r)
  {
    Table(header, seq(|t.rows|, i requires 0 <= i < |t.rows| => Restrict(t.rows[i], header)))
  }
  /** Limiting a table twice to the same header is limiting it once. */
  lemma ReshapeTwice(t: Table, header: seq<string>)
    requires Names(header) <= Names(t.header)
    ensures Reshape(Reshape(t, header), header) == Reshape(t, header)
  {
    var once := Reshape(t, header);
    var twice := Reshape(once, header);
    forall i | 0 <= i < |once.rows|
      ensures twice.rows[i] == once.rows[i]
    {
      assert twice.rows[i] == Restrict(once.rows[i], header);
      assert once.rows[i] == Restrict(t.rows[i], header);
    }
  }


  /** A row predicate as the pipeline states it: no null among some columns,
      equality of one column with a value, or both. */
  datatype RowTest =
    | NoNulls(cols: seq<string>)
    | Equals(col: string, value: Value)
    | Both(left: RowTest, right: RowTest)

  predicate Holds(test: RowTest, row: Row) {
    match test
    case NoNulls(cols) => forall c | c in cols :: CellAt(row, c).Some?
    case Equals(col, v) => CellAt(row, col) == Some(v)
    case Both(a, b) => Holds(a, row) && Holds(b, row)
  }

  /** The columns a test reads. */
  function Columns(test: RowTest): seq<string> {
    match test
    case NoNulls(cols) => cols
    case Equals(col, _) => [col]
    case Both(a, b) => Columns(a) + Columns(b)
  }

  /** The rows that pass the test, in their original order. */
  function Where(rows: seq<Row>, test: RowTest): (r: seq<Row>)
    ensures IsSubsequence(r, rows)
    ensures forall row | row in r :: row in rows && Holds(test, row)
    ensures forall row | row in rows && Holds(test, row) :: row in r
    ensures |r| <= |rows|
    ensures |r| == |rows| <==> forall i | 0 <= i < |rows| :: Holds(test, rows[i])
  {
    if |rows| == 0 then []
    else
      var rest := Where(rows[1..], test);
      assert forall i | 1 <= i < |rows| :: rows[i] == rows[1..][i - 1];
      if Holds(test, rows[0]) then [rows[0]] + rest else rest
  }

  /** Filtering rows keeps a well-formed table well-formed. */
  lemma WhereWellFormed(t: Table, test: RowTest)
    ensures WellFormed(t) ==> WellFormed(Table(t.header, Where(t.rows, test)))
  {
    var r := Where(t.rows, test);
    if WellFormed(t) {
      forall i | 0 <= i < |r|
        ensures r[i].Keys == Names(t.header)
      {
        assert r[i] in t.rows;
      }
    }
  }

  /** The number of rows that pass the test. */
  function Count(rows: seq<Row>, test: RowTest): nat {
    |Where(rows, test)|
  }

  /** Filtering is decided row by row: appending a row appends it to the result iff it passes. */
  lemma {:induction false} WhereSnoc(rows: seq<Row>, row: Row, test: RowTest)
    ensures Where(rows + [row], test) == Where(rows, test) + (if Holds(test, row) then [row] else [])
  {
    if |rows| == 0 {
      assert rows + [row] == [row];
    } else {
      assert (rows + [row])[1..] == rows[1..] + [row];
      WhereSnoc(rows[1..], row, test);
    }
  }

  /** A test no row passes selects nothing. */
  lemma {:induction false} WhereNone(rows: seq<Row>, test: RowTest)
    requires forall i | 0 <= i < |rows| :: !Holds(test, rows[i])
    ensures Where(rows, test) == []
  {
    if |rows| > 0 {
      WhereNone(rows[1..], test);
    }
  }

  /** Two filters in sequence keep exactly the rows that pass both. */
  lemma {:induction false} WhereTwice(rows: seq<Row>, a: RowTest, b: RowTest)
    ensures Where(Where(rows, a), b) == Where(rows, Both(a, b))
  {
    if |rows| > 0 {
      WhereTwice(rows[1..], a, b);
    }
  }

  /** Tests that agree on every row select the same rows. */
  lemma {:induction false} WhereAgree(rows: seq<Row>, a: RowTest, b: RowTest)
    requires forall i | 0 <= i < |rows| :: Holds(a, rows[i]) == Holds(b, rows[i])
    ensures Where(rows, a) == Where(rows, b)
  {
    if |rows| > 0 {
      WhereAgree(rows[1..], a, b);
    }
  }

  /** A row-wise change that never flips the test keeps the count of passing rows. */
  lemma {:induction false} CountAgree(rows: seq<Row>, rows': seq<Row>, test: RowTest)
    requires |rows| == |rows'|
    requires forall i | 0 <= i < |rows| :: Holds(test, rows[i]) == Holds(test, rows'[i])
    ensures Count(rows, test) == Count(rows', test)
  {
    if |rows| > 0 {
      CountAgree(rows[1..], rows'[1..], test);
    }
  }
}
